=== FILE: README.md ===
# Order normalisation pipeline of the FetchKids order module

This project models, in Dafny, how a loosely typed order moves through the
shop's ordering code and becomes a stored order document:

- **the order-creation endpoint** (`POST /api/orders`): the payload guard, the
  customisation detector `hasCustomizationPayload`, the per-product
  normaliser, the totals block, the defaulted `newOrderData` object and the
  save through the Order schema (modules `Detector`, `Normalize`, `Totals`,
  `OrderRoute`);
- **the Order schema**: how mongoose casts each path, the defaults, the
  `required`/`min: 1` validators, the status enum and the `pre("save")` hook
  that fills in the order number and QR code (modules `Schema`, `OrderModel`);
- **the PaymentTransaction schema** and **the payment webhook**
  (`POST /api/payments/verify`), which settles one transaction and confirms
  its order when the payment was captured (modules `Payment`, `Webhook`);
- **the browser side**: the order form's product list, its own customisation
  test and subtotal and the request it sends (module `Builder`), the order
  draft and its line arithmetic (module `Draft`), the shipping-address page
  with its postal-code autofill (module `Location`) and the checkout page
  (module `Checkout`).

JavaScript values are the datatype `Json.JValue` (`undefined`, `null`,
booleans, whole numbers, `NaN`, strings, arrays, objects) with `Truthy`, `||`
(`Or`) and property access (`Get`, which yields `undefined` on anything that
is not an object). `Coerce` gives `String(v)`, `Number(v)`, `trim` and
`split` for these values. Numbers are whole numbers or `NaN`
(`Coerce.Number`), so `Number("abc") * 2` is `NaN`, as in the source.

Outside collaborators are parameters: the order-number generator, the QR
encoder and the site address are `OrderRoute.Services` (and
`OrderModel.HookServices` for the save hook); the HMAC digest and
`JSON.parse` are `Webhook.Crypto`; the database is an explicit value
(`Webhook.Store`, or the result of `OrderModel.Save`); the postal-code
service's reply is the parameter `Location.Lookup`. The route's `generateQR`
and the hook's `QRCode.toDataURL` are both the one encoder `toDataUrl`.

Three observations the proofs make precise:

- The order form sends `customization: {}` whenever its own test says "not
  customised", so the server's detector always agrees with the client's flag
  (`Builder.ServerAgreesWithClientFlag`), even though the two tests differ
  (the client ignores the colour; the server also looks at `previewImage` and
  `printFile` and at whitespace).
- The address page stores the name as `userName`, while the endpoint reads
  `shippingAddress.firstName` and `lastName`: an order placed from the
  checkout page is stored with an empty first and last name
  (`Checkout.CheckoutAddressAsStored`).
- Mongoose validates before it runs the schema's `pre("save")` hooks, and
  `orderNumber` is `required`, so the hook's "generate an order number"
  branch is never what makes a save succeed
  (`OrderModel.SaveKeepsGivenOrderNumber`).

## Model

| member | source | states |
|---|---|---|
| Coerce.TrimBlankIff | src/app/api/orders/route.ts:42 | `trim` leaves nothing exactly when the text is whitespace only |
| Coerce.ParseIntToString | src/app/api/orders/route.ts:64-65 | `Number(String(n))` gives back the whole number `n` |
| Coerce.NumberOrZero | src/app/api/orders/route.ts:64-65 | `Number(x \|\| 0)`: a missing or falsy value reads as 0, a number as itself, non-empty text as its parsed value |
| Coerce.ParseRadixLiteral | src/app/api/orders/route.ts:64-65 | `Number` reads `0b`, `0o` and `0x` literals (either case) in base 2, 8 and 16: printing `n` in that base after the prefix and reading it back gives `n` |
| Coerce.RadixLiteralRefusals | src/app/api/orders/route.ts:64-65 | a prefix with no digit after it, or with a sign before it, reads as `NaN` |
| Coerce.SplitJoin | src/app/order/orderCreation.tsx:280-281 | joining the pieces of `split` with the separator gives back the text |
| Coerce.SplitTwoWords | src/app/order/orderCreation.tsx:280-281 | two separator-free words around one separator split into exactly those two words |
| Detector.DetectorCases | src/app/api/orders/route.ts:36-47 | a falsy product is never customised; a truthy `isCustomized` decides alone; otherwise the verdict is true iff a truthy `customization` has content |
| Detector.EmptyCustomizationHasNoContent | src/app/api/orders/route.ts:39-45 | the empty object `{}` as `customization` has no content |
| Detector.StringCountsIff | src/app/api/orders/route.ts:42 | a text value counts exactly when it holds a character other than whitespace |
| Detector.NonStringScalarsCount | src/app/api/orders/route.ts:42 | numbers, booleans, `NaN` and objects count as text, since `String(v)` prints something visible (an object with its own `toString` key, on which `String(v)` throws, is read as a plain object here) |
| Detector.StringTextDataIff | src/app/api/orders/route.ts:41-42 | a `textData` given as one string counts exactly when it has a visible character |
| Detector.WhitespaceTextIsNotCustomization | src/app/api/orders/route.ts:39-46 | with the flag falsy, whitespace-only or missing text and no other content, the product is not customised |
| Detector.VisibleTextMakesCustomized | src/app/api/orders/route.ts:39-46 | visible text in any one `textData` field makes an object product customised, whatever the other fields hold, provided none of them makes `String(v)` throw |
| Normalize.PhotoList | src/app/api/orders/route.ts:88 | an array is kept, a truthy non-array becomes a one-element list, a falsy value becomes `[]` |
| Normalize.NormalizeCustomization | src/app/api/orders/route.ts:80-95 | the text lines, font, colour, style and print file are the payload's values when truthy, else `""`; `photoUrls` is the payload's array or `[]`; `isCartoonStyle` is the payload value's truthiness; `previewImage` is the customisation's when truthy, else the product's when truthy, else `""` |
| Normalize.NormalizeProduct | src/app/api/orders/route.ts:63-98 | price and quantity are `Number(x \|\| 0)`, the line total is their product; name and image are the payload's when truthy, else `""`; `productId` is the payload's or `null`; `isCustomized` is the detector's verdict and the sub-record is present iff that verdict is true, and then it is the normalised customisation |
| Normalize.NormalizeProducts | src/app/api/orders/route.ts:63-98 | succeeds iff no product is `null`/`undefined`; then the same number of products, position by position normalised |
| Normalize.EncodeProduct | src/app/api/orders/route.ts:70-97 | the returned object holds the normalised fields, and the `customization` key exactly when the product is customised |
| Normalize.DetectorFixpoint | src/app/api/orders/route.ts:68-77 | the detector applied to a normalised product returns that product's own `isCustomized` |
| Normalize.NormalizeIdempotent | src/app/api/orders/route.ts:63-98 | normalising an already normalised product (with numeric price and quantity) changes nothing |
| Totals.LineAmount | src/app/api/orders/route.ts:101 | a line adds its total price, and 0 when that is `NaN` |
| Totals.ReduceIsSum | src/app/api/orders/route.ts:101 | the left-to-right `reduce` from `acc` equals `acc` plus the sum of the line amounts |
| Totals.SubtotalNonNegative | src/app/api/orders/route.ts:101 | with non-negative prices and quantities the subtotal is not negative |
| Totals.ComputeTotals | src/app/api/orders/route.ts:101-105 | subtotal is the sum of the line amounts; tax, shipping and discount are `Number(x \|\| 0)`; total is subtotal + tax + shipping - discount, `NaN` iff one of the three is `NaN` |
| Totals.TotalWithoutExtras | src/app/api/orders/route.ts:102-105 | with no tax, shipping or discount the total equals the subtotal |
| Totals.DiscountCanMakeTotalNegative | src/app/api/orders/route.ts:105 | a discount above the subtotal gives a negative total: nothing clamps it |
| Totals.WorkedExample | src/app/api/orders/route.ts:101-105 | 100 x 2 and 50 x 1 with tax 10, shipping 20, discount 5 give subtotal 250 and total 275 |
| Schema.CastString | src/models/Order.ts:63-74 | a `String` path: `null` and `undefined` are both read as missing, text is kept, numbers are printed, an object with a non-empty text `_id` gives that id; arrays and other objects fail to cast |
| Schema.CastNumber | src/models/Order.ts:104-108 | a `Number` path: `null`, `undefined` and `""` are read as missing, numbers are kept, `NaN`, arrays and objects fail to cast |
| Schema.CastStringArray | src/models/Order.ts:68 | a `[String]` path: missing means `[]`, an array is cast element by element keeping `null`/`undefined` elements as empty slots, a single value is wrapped into a one-element array; any element failing fails the whole |
| Schema.Optional | src/models/Order.ts:63-74 | an optional path stores nothing for a missing value and fails only on a cast failure |
| Schema.WithDefault | src/models/Order.ts:105-107 | a defaulted path stores the default for a missing value and fails only on a cast failure |
| OrderModel.ParseStatus | src/models/Order.ts:129-141 | a status name is accepted iff it is one of the seven enum names, and maps to the status of that name |
| OrderModel.StatusNamesRoundTrip | src/models/Order.ts:129-141 | every status has its own name and the enum has exactly seven values |
| OrderModel.CastCustomization | src/models/Order.ts:60-75 | `isCustomized` and `isCartoonStyle` default to false, `photoUrls` to `[]`; a boolean flag is kept |
| OrderModel.EmptyCustomizationDefault | src/models/Order.ts:85 | the default `{}` casts to a sub-document with both flags false and no photos |
| OrderModel.CastProduct | src/models/Order.ts:77-86 | numbers and names are kept; a missing `customization` gets the empty default; a `NaN` price or quantity fails the cast |
| OrderModel.CastProducts | src/models/Order.ts:101 | the array casts iff every product casts, position by position |
| OrderModel.CastAddress | src/models/Order.ts:111-120 | every address field is optional and the country defaults to "India" |
| OrderModel.CastStatus | src/models/Order.ts:129-141 | a missing status is "pending"; a text status is accepted iff it is one of the seven names |
| OrderModel.CastOrder | src/models/Order.ts:88-160 | the document keeps the given products, totals, identifiers and names; tax, shipping and discount default to 0, payment method to "cod", payment status and status to "pending" |
| OrderModel.Validate | src/models/Order.ts:79-108 | accepted iff casting succeeds and order number, user name and email are non-empty, both totals present, and every product has a name, a price and a quantity of at least 1 |
| OrderModel.LowQuantityRejected | src/models/Order.ts:81 | one product with a quantity below 1 makes the whole order invalid |
| OrderModel.PreSave | src/models/Order.ts:163-172 | an existing order number and QR code are kept; each is generated only when absent, the QR code encoding `BASE_URL + "/order/track/" + number`; nothing else changes |
| OrderModel.PreSaveAssignsOnce | src/models/Order.ts:163-172 | once the hook has run with non-empty generated values, running it again changes nothing |
| OrderModel.Save | src/models/Order.ts:163-172 | a save succeeds iff the document validates, and stores the hook's result on it |
| OrderModel.SaveKeepsGivenOrderNumber | src/models/Order.ts:164-166 | a successful save keeps the order number it was given |
| Payment.ParsePaymentMethod | src/models/PaymentTransaction.ts:8-12 | a method name is accepted iff it is one of the five enum names |
| Payment.ParseTxStatus | src/models/PaymentTransaction.ts:14-18 | a status name is accepted iff it is one of the four enum names |
| Payment.EnumNamesRoundTrip | src/models/PaymentTransaction.ts:8-18 | both enums name their values one-to-one; five methods and four statuses |
| Payment.CreateTransaction | src/models/PaymentTransaction.ts:3-22 | order reference, amount and a known method are required; status defaults to "pending" and must be a known name; transaction id and gateway response are optional |
| Payment.OptionalFieldsMayBeOmitted | src/models/PaymentTransaction.ts:13-19 | dropping the transaction id and gateway response from an acceptable transaction keeps it acceptable with every other path unchanged |
| Webhook.FirstMatch | src/app/api/payments/verify/route.ts:24 | `findOne` returns the first transaction whose id matches, or none when no transaction matches |
| Webhook.Settle | src/app/api/payments/verify/route.ts:29-30 | the transaction becomes "completed" when captured and "failed" otherwise, keeps the event, and nothing else changes |
| Webhook.ConfirmOrder | src/app/api/payments/verify/route.ts:34-37 | only the referenced order changes, to paid and confirmed; a missing id changes nothing |
| Webhook.HandleWebhook | src/app/api/payments/verify/route.ts:7-45 | a wrong or missing signature gives 400 and changes nothing; any failure changes nothing; no document is added or removed |
| Webhook.SettlesOneTransaction | src/app/api/payments/verify/route.ts:24-31 | a signed request succeeds iff it names a transaction; exactly that transaction is settled and every other is unchanged |
| Webhook.OnlyCapturedConfirms | src/app/api/payments/verify/route.ts:33-38 | orders change only for a captured payment, and then only the transaction's order |
| Webhook.ReplayChangesNothing | src/app/api/payments/verify/route.ts:24-38 | handling the same request a second time leaves the store as the first time left it |
| Webhook.FirstMatchUnique | src/app/api/payments/verify/route.ts:24 | the first match depends only on the matched transaction's id and the transactions before it |
| OrderRoute.ShippingFields | src/app/api/orders/route.ts:121-130 | each address field is the payload's value when truthy, else `""`; the country is the payload's when truthy, else "India" |
| OrderRoute.NewOrderData | src/app/api/orders/route.ts:108-137 | status "pending", empty print and drive fields, truthy payment defaults, user fields `""` or truthy, one entry per product |
| OrderRoute.Assemble | src/app/api/orders/route.ts:63-137 | the order object is built iff no product is `null`/`undefined` |
| OrderRoute.AssembledHasNoNullDefaults | src/app/api/orders/route.ts:63-137 | the assembled object holds no `null` on any path whose schema declares a default (charges, payment fields, status, country, the product and customisation flags, `photoUrls`), so reading `null` like `undefined` in the casts does not change what the route stores |
| OrderRoute.CreateOrder | src/app/api/orders/route.ts:49-155 | unparsable body gives 500; 400 iff the body is falsy or `products` is not a non-empty array, whatever the generators would return; an accepted body is created iff assembling and saving both succeed, the created order being the saved assembled object; otherwise the assembling or saving error gives 500 with its message |
| OrderRoute.StoredProduct | src/models/Order.ts:77-86 | a stored normalised product keeps the detector's verdict in both flags and its numeric price, quantity and line total |
| OrderRoute.CreatedSteps | src/app/api/orders/route.ts:63-140 | a created order is the hook run on the validated document cast from `newOrderData` of the normalised products |
| OrderRoute.CreatedProducts | src/app/api/orders/route.ts:63-77 | each stored product comes from the payload's product at the same position: detector flags, `Number(x \|\| 0)` price and a quantity of at least 1 |
| OrderRoute.MissingQuantityFails | src/models/Order.ts:81 | a product with a missing, zero or falsy quantity makes the request fail |
| OrderRoute.DocumentIdentity | src/app/api/orders/route.ts:108-133 | the document holds the given order number and QR code and status "pending" |
| OrderRoute.DocumentDefaults | src/app/api/orders/route.ts:128-132 | payment method "cod", payment status "pending" and country "India" when the payload gives none |
| OrderRoute.CreatedIdentity | src/app/api/orders/route.ts:59-60 | a created order carries the generated number, the QR code of its tracking link, status "pending" and the payment and country defaults |
| OrderRoute.CreatedNeedsUser | src/app/api/orders/route.ts:112-113 | an order is created only for a payload with a truthy user name and email |
| OrderRoute.DocumentTotals | src/app/api/orders/route.ts:116-120 | the document holds the computed totals, which casting accepts only when none is `NaN` |
| OrderRoute.CreatedTotals | src/app/api/orders/route.ts:101-105 | a created order's subtotal is the sum of the line totals and its total is subtotal + tax + shipping - discount |
| OrderRoute.CreatedCharges | src/app/api/orders/route.ts:102-104 | the stored tax, shipping and discount are the payload's values read with `Number(x \|\| 0)` |
| OrderRoute.CreatedLine | src/app/api/orders/route.ts:101 | each line total that entered the subtotal is the stored product's price times quantity |
| OrderRoute.DocumentProducts | src/app/api/orders/route.ts:115 | the document stores one product per normalised product, each cast from it |
| OrderRoute.StoredLineSum | src/app/api/orders/route.ts:101 | the normalised line totals add up to the value of the products stored from them |
| OrderRoute.CreatedLineValue | src/app/api/orders/route.ts:101 | the subtotal's line totals add up to the value of the stored lines |
| OrderRoute.CreatedSubtotalIsLineSum | src/app/api/orders/route.ts:101-105 | a created order's subtotal is the sum of its stored prices times quantities, and its total adds tax and shipping and subtracts the discount |
| Draft.LineNumber | src/app/order/orderCreation.tsx:235 | a line is a number iff both `Number(x \|\| 0)` are, and 0 when price or quantity is falsy |
| Draft.SumLinesFinite | src/app/order/orderCreation.tsx:234-237 | lines that are all numbers add up to the start plus their sum |
| Draft.SumLinesNaN | src/app/order/orderCreation.tsx:234-237 | one `NaN` line, wherever it sits, makes the sum `NaN` |
| Builder.AddProduct | src/app/order/orderCreation.tsx:78-98 | exactly one fresh row is appended and the existing rows are unchanged |
| Builder.ApplyEdit | src/app/order/orderCreation.tsx:100-107 | an edit sets its one field of the row and leaves the others |
| Builder.UpdateAt | src/app/order/orderCreation.tsx:100-107 | only the row at the index changes; an index outside the list changes nothing |
| Builder.ChangeProductFrame | src/app/order/orderCreation.tsx:100-107 | a product edit changes one field of one row and nothing else |
| Builder.ChangeCustomizationFrame | src/app/order/orderCreation.tsx:109-120 | a style edit changes one customisation field of one row and nothing else |
| Builder.ChangeTextDataFrame | src/app/order/orderCreation.tsx:122-139 | a text edit sets one key of one row's text and leaves the other keys, customisation fields and rows alone |
| Builder.ColourAloneDoesNotCount | src/app/order/orderCreation.tsx:240-246 | the colour never changes the client's verdict; a fresh row is not customised although its colour is set |
| Builder.ClientSubtotalNaN | src/app/order/orderCreation.tsx:234-237 | one row whose price or quantity is not a number makes the client subtotal `NaN` |
| Builder.ClientSubtotalOfLines | src/app/order/orderCreation.tsx:234-237 | rows whose lines are all numbers give the sum of those numbers |
| Builder.EmitProduct | src/app/order/orderCreation.tsx:248-267 | `isCustomized` is the client's verdict; `customization` is `{}` when false and, when true, flagged with an empty print file and the preview image |
| Builder.EmitProducts | src/app/order/orderCreation.tsx:239-268 | one emitted product per row, in order |
| Builder.ServerAgreesWithClientFlag | src/app/order/orderCreation.tsx:252-266 | the server's detector on an emitted product returns exactly the client's flag |
| Builder.PlaceholderNames | src/app/order/orderCreation.tsx:280-281 | a two-word name gives first and last name; one word gives an empty last name |
| Builder.PlaceholderAddress | src/app/order/orderCreation.tsx:279-287 | first and last word of the name, fixed street, city, state and postal code, the form's phone, no country |
| Builder.OrderPayload | src/app/order/orderCreation.tsx:270-289 | no tax or shipping, total equal to the client subtotal, cash on delivery, the emitted products and the placeholder address |
| Builder.PayloadPassesGuard | src/app/api/orders/route.ts:54-56 | the endpoint accepts the form's request exactly when it has products |
| Builder.ServerReadsPlaceholderAddress | src/app/api/orders/route.ts:121-130 | the server stores the placeholder address's fields with the country "India" |
| Builder.ServerLineMatches | src/app/api/orders/route.ts:64-66 | for a row with numeric price and quantity, the server's line total is the client's line |
| Builder.EmittedProductsNormalize | src/app/api/orders/route.ts:63 | every emitted product is an object, so normalisation never throws on them |
| Builder.EmittedValuesConvert | src/app/order/orderCreation.tsx:248-267 | the form's price, quantity and every `textData` value are text, numbers or `null`, never an object with its own `toString` key, so the server's `String`/`Number` on them does not throw |
| Builder.ServerSubtotalMatchesClient | src/app/order/orderCreation.tsx:234-237 | with numeric rows, the server's subtotal over the emitted products is the client's |
| Builder.ServerTotalsMatchClient | src/app/order/orderCreation.tsx:275-278 | with numeric rows, the server's subtotal and total equal the client's total |
| Location.InitialAddress | src/app/order/location/locationForm.tsx:10-23 | the user's name and phone, country "India", type "home", empty street, postal code and city |
| Location.SyncUser | src/app/order/location/locationForm.tsx:28-36 | the new user's name and phone replace the old; every other field is kept |
| Location.ElementZero | src/app/order/location/locationForm.tsx:48-49 | `v?.[0]` is an array's first element and `undefined` on a nullish value |
| Location.Autofill | src/app/order/location/locationForm.tsx:49-56 | only city, district, state and country change, and the country is never empty |
| Location.PincodeChange | src/app/order/location/locationForm.tsx:38-66 | the code is stored; a lookup happens iff it has six characters; a failure or non-success reply sets its error and fills nothing; a success fills the place names |
| Location.PincodeChangeFrame | src/app/order/location/locationForm.tsx:38-66 | a lookup writes only the postal code and the place names |
| Location.CountryStaysFilled | src/app/order/location/locationForm.tsx:55 | a filled country stays filled whatever the lookup returns |
| Location.CityFallsBackToDistrict | src/app/order/location/locationForm.tsx:52-53 | a post office without a name gives its district as the city |
| Location.Continue | src/app/order/location/locationForm.tsx:68-80 | refused iff name, phone or street is empty; otherwise the draft gets this address and keeps its user and products |
| Location.InitialAddressRefused | src/app/order/location/locationForm.tsx:69-72 | the form's first state cannot be continued, its street being empty |
| Checkout.ClearedDraftRedirects | src/app/order/checkout/page.tsx:21-25 | a cleared draft is sent back to the order form and has no address |
| Checkout.CheckoutLines | src/app/order/checkout/page.tsx:32 | one line per stored product, `Number(price \|\| 0) * Number(quantity \|\| 0)` |
| Checkout.CheckoutSubtotal | src/app/order/checkout/page.tsx:27-34 | the page renders iff no product is `null`/`undefined`; no products give 0 |
| Checkout.CheckoutSubtotalFinite | src/app/order/checkout/page.tsx:27-34 | with every line a number the page shows their sum |
| Checkout.CheckoutSubtotalNaN | src/app/order/checkout/page.tsx:27-34 | one line that is not a number makes the page show 0 |
| Checkout.AddressObject | src/app/order/location/locationForm.tsx:10-23 | the stored address has the form's fields and no `firstName` or `lastName` |
| Checkout.PlaceOrder | src/app/order/checkout/page.tsx:36-57 | without an address the visitor goes to the address page; otherwise the request carries the products and address unchanged, the shown subtotal as subtotal and total, no tax or shipping, cash on delivery |
| Checkout.CheckoutPassesGuard | src/app/api/orders/route.ts:54-56 | the endpoint accepts a checkout request exactly when the draft has products |
| Checkout.CheckoutServerTotal | src/app/api/orders/route.ts:101-105 | the server's total for a checkout request equals its own recomputed subtotal |
| Checkout.ServerLine | src/app/api/orders/route.ts:64-66 | the server's line total is the page's line with `NaN` read as 0 |
| Checkout.CheckoutSubtotalMatchesServer | src/app/order/checkout/page.tsx:27-34 | when every line is a number, the server's subtotal is the one the page shows |
| Checkout.SubtotalsDisagreeOnNaN | src/app/order/checkout/page.tsx:27-34 | with one non-numeric line the page shows 0 while the server adds up the other lines |
| Checkout.CheckoutAddressAsStored | src/app/api/orders/route.ts:121-130 | an address from the address page is stored with empty first and last name, and its street, city, state, postal code and phone kept |
| Checkout.ContinueThenPlace | src/app/order/location/locationForm.tsx:74-77 | once "continue" accepts an address, "place order" posts it and the server keeps its street and phone |

## Left out

- Database, network and runtime plumbing: `connectDB`, `Order.create`, `findOne`, `findByIdAndUpdate` and `save` are pure functions over explicit values; `unique` indexes, timestamps and the document `_id` are not modelled.
- Order-number and QR generation (`generateOrderId`, `generateQR`, `QRCode.toDataURL`) and `BASE_URL` are parameters; the route's `generateQR` and the hook's `QRCode.toDataURL` share one encoder parameter.
- The HMAC-SHA256 signature is the parameter `Crypto.digest`; only the equality test is modelled. `JSON.parse` is `Crypto.parse`, and a body that is not JSON is `None`.
- Photo uploads (`handleImageChange`, `handleFileUpload`, `ensureUploadsComplete`, blob-URL revocation) and `src/app/api/upload/route.ts` are network I/O; the draft product keeps only the photo's address (`previewUrl`) and its `photoUrls`.
- Payment creation (`src/app/api/payments/create/route.ts`), authentication and the User model are not part of this model: they are gateway calls, password hashing and database lookups.
- Rendering, routing, alerts, the loading and `isFetching` flags, React transitions and `localStorage` persistence are left out; the restored draft is assumed to have the shape the context declares.
- Numbers are whole numbers or `NaN`: fractional and exponent text read as `NaN`, and floating-point rounding is not modelled.
- Coerce.NumberOrZero: `String(v)` and `Number(v)` of an object that has its own `toString` key (as `JSON.parse` can produce, e.g. `{"toString":1}`), or of an array holding one, throw a `TypeError` in JavaScript; the model reads such an object as `"[object Object]"` and `NaN`. The lines below follow from this; the order form never sends such a value (Builder.EmittedValuesConvert).
- Detector.DetectorCases: on a `textData` value that makes `String(v)` throw, the source's detector throws, and the route answers 500; the model returns a verdict.
- Detector.NonStringScalarsCount: an object with its own `toString` key is counted as visible text, where `String(v)` throws.
- Detector.VisibleTextMakesCustomized: `.some` stops at the first value; when an earlier `textData` value makes `String(v)` throw, the source throws before reaching the visible one, while the model still answers customised.
- Normalize.NormalizeProduct: a product whose `textData` value, price or quantity makes `String`/`Number` throw gives a record here, where the source throws.
- Normalize.NormalizeProducts: normalisation also throws on such a product, so "succeeds iff no product is `null`/`undefined`" holds only for payloads without an own `toString` key.
- OrderRoute.Assemble: likewise, the object is built iff no product is nullish only for payloads without an own `toString` key.
- OrderRoute.CreateOrder: a body carrying such a value is answered by the model as for any other object (possibly Created), where the source throws and answers 500.
- Coerce.NumberOrZero: `"Infinity"` and `"-Infinity"` (and any text whose value overflows to an infinity) read as `NaN`, where `Number` gives an infinite number; the model has no infinite numbers.
- Schema.CastNumber: for the same reason `"Infinity"` fails to cast here, where mongoose stores an infinite number.
- Schema.WithDefault: an explicit `null` is read like `undefined` and given the default, where mongoose applies a default only to `undefined` and stores `null`; `Schema.Optional` likewise stores an explicit `null` as absent. The route never sends `null` on these paths (OrderRoute.AssembledHasNoNullDefaults).
- Schema.CastStringArray: an explicit `null` array gives `[]`, where mongoose stores `null`.
- OrderModel.CastCustomization: an explicit `null` `isCustomized` or `isCartoonStyle` is given false and a `null` `photoUrls` is given `[]`, where mongoose stores `null`.
- OrderModel.CastProduct: an explicit `null` `isCustomized` is given false, where mongoose stores `null`.
- OrderModel.CastAddress: an explicit `null` country is given "India", where mongoose stores `null`.
- OrderModel.CastStatus: an explicit `null` status is given "pending", where mongoose does not apply the default to `null`.
- OrderModel.CastOrder: an explicit `null` tax, shipping, discount, payment method, payment status or status is given its default, where mongoose stores `null`.
- `ObjectId` casting of `productId`, `userId` and `assignedTo` is not modelled; these are kept as given.
- Payment.CreateTransaction: an explicit `null` status is given "pending", where mongoose stores `null`.
- Payment.CreateTransaction: `orderId` and `userId` are `ObjectId` paths; the model casts them as text and accepts any value that casts, where mongoose additionally refuses anything that is not a 24-hex-digit id (or 12-byte value).
- Schema paths the pipeline never writes (`stripeSessionId`, `trackingNumber`, `carrier`, the dates, notes, `assignedTo`) are not part of the document datatype.
- The "Incomplete shipping address" rejection: the endpoint only defaults the address fields, and the model does not enforce any address field.
- OrderModel.CastProducts: a `null` element inside a products array is not modelled; every element is a product record.
- Location.PincodeChange: length is counted in characters, where JavaScript counts UTF-16 code units.
- Location.PincodeChange: the postal-code request itself is left out; only its outcome (`Lookup`) and the reply-to-address mapping are modelled.
- Location.PincodeChange: each reply is assumed to arrive before the next edit of the postal code. Stale replies (for a code the visitor has since changed, which still fill in the place names), out-of-order replies (the last to arrive wins, not the one for the latest code) and a late rejection setting its error after a later keystroke cleared it are not modelled.
- Checkout.CheckoutSubtotal: `orderData.products` missing altogether (read as 0 by `|| 0`) is not modelled; the draft always has a list.
- Checkout.PlaceOrder: the products are passed through as the draft stores them; `JSON.stringify` turning a stored `NaN` into `null` is not modelled on this path.
- Webhook.HandleWebhook: the error messages of thrown exceptions are stand-ins, not the runtime's exact wording; a `findOne` filter of `null` is modelled as matching transactions without an id; an array `order_id`, which mongoose turns into an `$in` query, and an object whose keys start with `$`, which mongoose reads as a query operator, are both modelled as a failed cast (an error, nothing changed).
- Normalize.NormalizeProducts: the thrown message is the one for a `null` element; an `undefined` element throws with "undefined" in its wording.
- OrderModel.Save: `required` and `min` validators are modelled; mongoose's own error texts are stand-ins.

=== FILE: base.dfy ===
/** Optional values and fallible results shared by every module of the model. */
module Base {

  datatype Option<+T> = None | Some(value: T) {
    /** The wrapped value, or `default` when there is none. */
    function GetOr(default: T): T {
      match this
      case Some(v) => v
      case None => default
    }
  }

  /** Either a value or an error message, as a handler's try/catch would produce. */
  datatype Result<+T> = Ok(value: T) | Err(message: string) {
    predicate IsFailure() {
      Err?
    }

    function PropagateFailure<U>(): Result<U>
      requires Err?
    {
      Err(message)
    }

    function Extract(): T
      requires Ok?
    {
      value
    }
  }
}

=== FILE: builder.dfy ===
/** The browser's order form: the editable product list, the client's own
    customisation test and subtotal, and the request body it sends to the
    order-creation endpoint. */
module Builder {
  import opened Json
  import opened Coerce
  import opened Detector
  import opened Normalize
  import opened Totals
  import opened Draft
  import OrderRoute
  import OrderModel

  // ---------------------------------------------------------------- the editable product list

  datatype TextKey = NameKey | ClassNameKey | SchoolNameKey | SectionKey

  datatype DraftText = DraftText(name: string, className: string, schoolName: string, section: string) {
    function Get(k: TextKey): string {
      match k
      case NameKey => name
      case ClassNameKey => className
      case SchoolNameKey => schoolName
      case SectionKey => section
    }

    function Set(k: TextKey, v: string): (r: DraftText)
      ensures r.Get(k) == v
      ensures forall k' | k' != k :: r.Get(k') == Get(k')
    {
      match k
      case NameKey => this.(name := v)
      case ClassNameKey => this.(className := v)
      case SchoolNameKey => this.(schoolName := v)
      case SectionKey => this.(section := v)
    }
  }

  datatype DraftCustomization = DraftCustomization(
    textData: DraftText,
    font: string,
    color: string,
    style: string,
    photoUrls: seq<string>,
    isCartoonStyle: bool)

  /** One product row. Price and quantity hold what was typed. The chosen photo file
      and its upload are not part of this model; `previewUrl` is the photo's address. */
  datatype DraftProduct = DraftProduct(
    name: string,
    price: string,
    quantity: string,
    isCustomized: bool,
    customization: DraftCustomization,
    previewUrl: string)

  /** The row the form starts with and `addProduct` appends. */
  const NewDraftProduct: DraftProduct :=
    DraftProduct("", "", "", false,
                 DraftCustomization(DraftText("", "", "", ""), "", "#000000", "", [], false), "")

  /** `addProduct`: one fresh row at the end; the existing rows stay as they were. */
  function AddProduct(ps: seq<DraftProduct>): (r: seq<DraftProduct>)
    ensures |r| == |ps| + 1
    ensures r[..|ps|] == ps
    ensures r[|ps|] == NewDraftProduct
  {
    ps + [NewDraftProduct]
  }

  /** The fields the form edits through `handleProductChange`. */
  datatype ProductEdit = SetName(name: string) | SetPrice(price: string) | SetQuantity(quantity: string) | SetCustomized(on: bool)

  function ApplyEdit(p: DraftProduct, e: ProductEdit): (r: DraftProduct)
    ensures e.SetName? ==> r.name == e.name && r.(name := p.name) == p
    ensures e.SetPrice? ==> r.price == e.price && r.(price := p.price) == p
    ensures e.SetQuantity? ==> r.quantity == e.quantity && r.(quantity := p.quantity) == p
    ensures e.SetCustomized? ==> r.isCustomized == e.on && r.(isCustomized := p.isCustomized) == p
  {
    match e
    case SetName(v) => p.(name := v)
    case SetPrice(v) => p.(price := v)
    case SetQuantity(v) => p.(quantity := v)
    case SetCustomized(v) => p.(isCustomized := v)
  }

  /** `prev.map((p, i) => i === index ? f(p) : p)`: only the row at `index` changes,
      and an index outside the list changes nothing. */
  function UpdateAt(ps: seq<DraftProduct>, index: int, f: DraftProduct -> DraftProduct): (r: seq<DraftProduct>)
    ensures |r| == |ps|
    ensures forall i | 0 <= i < |ps| && i != index :: r[i] == ps[i]
    ensures 0 <= index < |ps| ==> r[index] == f(ps[index])
    ensures !(0 <= index < |ps|) ==> r == ps
  {
    seq(|ps|, i requires 0 <= i < |ps| => if i == index then f(ps[i]) else ps[i])
  }

  /** `handleProductChange(index, field, value)` */
  function ChangeProduct(ps: seq<DraftProduct>, index: int, e: ProductEdit): seq<DraftProduct> {
    UpdateAt(ps, index, p => ApplyEdit(p, e))
  }

  /** The customisation fields the form edits through `handleCustomizationChange`. */
  datatype StyleEdit = SetFont(font: string) | SetColor(color: string) | SetStyle(style: string)

  function ApplyStyle(c: DraftCustomization, e: StyleEdit): DraftCustomization {
    match e
    case SetFont(v) => c.(font := v)
    case SetColor(v) => c.(color := v)
    case SetStyle(v) => c.(style := v)
  }

  /** `handleCustomizationChange(index, field, value)` */
  function ChangeCustomization(ps: seq<DraftProduct>, index: int, e: StyleEdit): seq<DraftProduct> {
    UpdateAt(ps, index, (p: DraftProduct) => p.(customization := ApplyStyle(p.customization, e)))
  }

  /** `handleTextDataChange(index, key, value)` */
  function ChangeTextData(ps: seq<DraftProduct>, index: int, k: TextKey, v: string): seq<DraftProduct> {
    UpdateAt(ps, index, (p: DraftProduct) => p.(customization := p.customization.(textData := p.customization.textData.Set(k, v))))
  }

  /** A product edit changes one field of one row and nothing else. */
  lemma ChangeProductFrame(ps: seq<DraftProduct>, index: int, e: ProductEdit)
    ensures var r := ChangeProduct(ps, index, e);
            && |r| == |ps|
            && (forall i | 0 <= i < |ps| && i != index :: r[i] == ps[i])
            && (0 <= index < |ps| ==> r[index] == ApplyEdit(ps[index], e))
            && (!(0 <= index < |ps|) ==> r == ps)
  {
  }

  /** A text edit sets one key of one row's text, and leaves the other keys, the
      other customisation fields, the rest of that row and every other row alone. */
  lemma ChangeTextDataFrame(ps: seq<DraftProduct>, index: int, k: TextKey, v: string)
    requires 0 <= index < |ps|
    ensures var r := ChangeTextData(ps, index, k, v);
            var old_p := ps[index];
            && |r| == |ps|
            && (forall i | 0 <= i < |ps| && i != index :: r[i] == ps[i])
            && r[index].customization.textData.Get(k) == v
            && (forall k' | k' != k :: r[index].customization.textData.Get(k') == old_p.customization.textData.Get(k'))
            && r[index].customization.(textData := old_p.customization.textData) == old_p.customization
            && r[index].(customization := old_p.customization) == old_p
  {
  }

  /** A style edit sets one customisation field of one row and nothing else. */
  lemma ChangeCustomizationFrame(ps: seq<DraftProduct>, index: int, e: StyleEdit)
    requires 0 <= index < |ps|
    ensures var r := ChangeCustomization(ps, index, e);
            var c := r[index].customization;
            var old_c := ps[index].customization;
            && |r| == |ps|
            && (forall i | 0 <= i < |ps| && i != index :: r[i] == ps[i])
            && (e.SetFont? ==> c == old_c.(font := e.font))
            && (e.SetColor? ==> c == old_c.(color := e.color))
            && (e.SetStyle? ==> c == old_c.(style := e.style))
            && r[index].(customization := old_c) == ps[index]
  {
  }

  // ---------------------------------------------------------------- the client's customisation test and subtotal

  /** `hasCustomization`: the flag, any non-empty text, a photo, a font or a style.
      The colour is not consulted. */
  predicate ClientHasCustomization(p: DraftProduct) {
    var t := p.customization.textData;
    || p.isCustomized
    || t.name != "" || t.className != "" || t.schoolName != "" || t.section != ""
    || |p.customization.photoUrls| > 0
    || p.customization.font != ""
    || p.customization.style != ""
  }

  /** A fresh row has the colour "#000000" but is not customised: colour alone
      never counts on the client. */
  lemma ColourAloneDoesNotCount(p: DraftProduct, colour: string)
    ensures ClientHasCustomization(p.(customization := p.customization.(color := colour))) == ClientHasCustomization(p)
    ensures !ClientHasCustomization(NewDraftProduct) && NewDraftProduct.customization.color != ""
  {
  }

  /** `Number(p.price || 0) * Number(p.quantity || 0)` for one row. */
  function DraftLine(p: DraftProduct): Number {
    LineNumber(JStr(p.price), JStr(p.quantity))
  }

  function DraftLines(ps: seq<DraftProduct>): (r: seq<Number>)
    ensures |r| == |ps|
    ensures forall i | 0 <= i < |ps| :: r[i] == DraftLine(ps[i])
  {
    seq(|ps|, i requires 0 <= i < |ps| => DraftLine(ps[i]))
  }

  /** The client subtotal: the rows' lines added from 0. */
  function ClientSubtotal(ps: seq<DraftProduct>): Number {
    SumLines(Finite(0), DraftLines(ps))
  }

  /** A row whose price or quantity is not a number makes the subtotal `NaN`. */
  lemma ClientSubtotalNaN(ps: seq<DraftProduct>, k: int)
    requires 0 <= k < |ps| && DraftLine(ps[k]).NaN?
    ensures ClientSubtotal(ps).NaN?
  {
    SumLinesNaN(Finite(0), DraftLines(ps), k);
  }

  // ---------------------------------------------------------------- the request body

  function EmitText(t: DraftText): JValue {
    JObj(map["name" := JStr(t.name), "className" := JStr(t.className),
             "schoolName" := JStr(t.schoolName), "section" := JStr(t.section)])
  }

  function EmitStrings(xs: seq<string>): (r: seq<JValue>)
    ensures |r| == |xs|
  {
    seq(|xs|, i requires 0 <= i < |xs| => JStr(xs[i]))
  }

  /** One element of `orderProducts` as the server receives it after
      `JSON.stringify` (a `NaN` price or quantity arrives as `null`). The
      customisation is complete and flagged when `hasCustomization` holds, and `{}`
      otherwise. */
  function EmitProduct(p: DraftProduct): (e: JValue)
    ensures e.JObj?
    ensures Get(e, "isCustomized") == JBool(ClientHasCustomization(p))
    ensures Get(e, "price") == AsJson(NumberOrZero(JStr(p.price)))
    ensures Get(e, "quantity") == AsJson(NumberOrZero(JStr(p.quantity)))
    ensures !ClientHasCustomization(p) ==> Get(e, "customization") == JObj(map[])
    ensures ClientHasCustomization(p) ==>
              && Get(Get(e, "customization"), "isCustomized") == JBool(true)
              && Get(Get(e, "customization"), "printFile") == JStr("")
              && Get(Get(e, "customization"), "previewImage") == JStr(p.previewUrl)
  {
    var h := ClientHasCustomization(p);
    EmittedObject(JStr(p.name), AsJson(NumberOrZero(JStr(p.price))), AsJson(NumberOrZero(JStr(p.quantity))),
                  JBool(h), JStr(p.previewUrl),
                  if h then EmittedCustomization(p.customization, p.previewUrl) else JObj(map[]))
  }

  /** The form never sends a value on which the server's `String`/`Number` would
      throw: the price, the quantity and every `textData` value convert. */
  lemma EmittedValuesConvert(p: DraftProduct)
    ensures !ConversionThrows(Get(EmitProduct(p), "price"))
    ensures !ConversionThrows(Get(EmitProduct(p), "quantity"))
    ensures var t := Get(Get(EmitProduct(p), "customization"), "textData");
            t.JObj? ==> forall k | k in t.fields :: !ConversionThrows(t.fields[k])
  {
    var e := EmitProduct(p);
    assert !ConversionThrows(Get(e, "price")) by {
      assert Get(e, "price") == AsJson(NumberOrZero(JStr(p.price)));
    }
    assert !ConversionThrows(Get(e, "quantity")) by {
      assert Get(e, "quantity") == AsJson(NumberOrZero(JStr(p.quantity)));
    }
    var t := Get(Get(e, "customization"), "textData");
    if ClientHasCustomization(p) {
      assert Get(e, "customization") == EmittedCustomization(p.customization, p.previewUrl);
      var x := p.customization.textData;
      assert t == EmitText(x);
      assert t.fields == map["name" := JStr(x.name), "className" := JStr(x.className),
                             "schoolName" := JStr(x.schoolName), "section" := JStr(x.section)];
    } else {
      assert Get(e, "customization") == JObj(map[]);
    }
  }

  /** The customisation object of a customised row. */
  function EmittedCustomization(c: DraftCustomization, previewUrl: string): (r: JValue)
    ensures Get(r, "isCustomized") == JBool(true) && Get(r, "printFile") == JStr("")
    ensures Get(r, "previewImage") == JStr(previewUrl)
    ensures Get(r, "textData") == EmitText(c.textData)
  {
    JObj(map["isCustomized" := JBool(true),
             "textData" := EmitText(c.textData),
             "photoUrls" := JArr(EmitStrings(c.photoUrls)),
             "font" := JStr(c.font),
             "color" := JStr(c.color),
             "style" := JStr(c.style),
             "isCartoonStyle" := JBool(c.isCartoonStyle),
             "previewImage" := JStr(previewUrl),
             "printFile" := JStr("")])
  }

  /** The product object with its six keys. */
  function EmittedObject(name: JValue, price: JValue, quantity: JValue, isCustomized: JValue,
                         imageUrl: JValue, custom: JValue): (r: JValue)
    ensures r.JObj?
    ensures Get(r, "name") == name && Get(r, "price") == price && Get(r, "quantity") == quantity
    ensures Get(r, "isCustomized") == isCustomized && Get(r, "imageUrl") == imageUrl
    ensures Get(r, "customization") == custom
  {
    JObj(map["name" := name, "price" := price, "quantity" := quantity,
             "isCustomized" := isCustomized, "imageUrl" := imageUrl, "customization" := custom])
  }

  function EmitProducts(ps: seq<DraftProduct>): (r: seq<JValue>)
    ensures |r| == |ps|
    ensures forall i | 0 <= i < |ps| :: r[i] == EmitProduct(ps[i])
  {
    seq(|ps|, i requires 0 <= i < |ps| => EmitProduct(ps[i]))
  }

  /** The server's detector agrees with the client's flag on every emitted product:
      a customised product says so itself, and any other is sent with `{}`. */
  lemma ServerAgreesWithClientFlag(p: DraftProduct)
    ensures HasCustomizationPayload(EmitProduct(p)) == ClientHasCustomization(p)
  {
    var e := EmitProduct(p);
    DetectorCases(e);
    if !ClientHasCustomization(p) {
      EmptyCustomizationHasNoContent();
    }
  }

  /** The user fields typed into the form. */
  datatype FormFields = FormFields(userName: string, userEmail: string, phone: string)

  /** `form.userName.split(" ")[0] || ""` */
  function FirstWord(s: string): string {
    Split(s, ' ')[0]
  }

  /** `form.userName.split(" ")[1] || ""` */
  function SecondWord(s: string): string {
    var parts := Split(s, ' ');
    if |parts| > 1 then parts[1] else ""
  }

  /** A two-word name gives the first and last name of the placeholder address,
      and a one-word name gives an empty last name. */
  lemma PlaceholderNames(first: string, last: string)
    requires ' ' !in first && ' ' !in last
    ensures FirstWord(first + " " + last) == first && SecondWord(first + " " + last) == last
    ensures FirstWord(first) == first && SecondWord(first) == ""
  {
    assert first + " " + last == first + [' '] + last;
    SplitTwoWords(first, last, ' ');
    SplitWithoutSeparator(first, ' ');
  }

  /** The placeholder shipping address: the name's words, fixed street, city,
      state and postal code, and the form's phone; no country. */
  function PlaceholderAddress(f: FormFields): (r: JValue)
    ensures Get(r, "firstName") == JStr(FirstWord(f.userName))
    ensures Get(r, "lastName") == JStr(SecondWord(f.userName))
    ensures Get(r, "street") == JStr("N/A") && Get(r, "city") == JStr("N/A")
    ensures Get(r, "state") == JStr("Kerala") && Get(r, "postalCode") == JStr("000000")
    ensures Get(r, "phone") == JStr(f.phone) && Get(r, "country") == JUndef
  {
    AddressBody(FirstWord(f.userName), SecondWord(f.userName), f.phone)
  }

  function AddressBody(first: string, last: string, phone: string): (r: JValue)
    ensures Get(r, "firstName") == JStr(first) && Get(r, "lastName") == JStr(last)
    ensures Get(r, "street") == JStr("N/A") && Get(r, "city") == JStr("N/A")
    ensures Get(r, "state") == JStr("Kerala") && Get(r, "postalCode") == JStr("000000")
    ensures Get(r, "phone") == JStr(phone) && Get(r, "country") == JUndef
  {
    JObj(map["firstName" := JStr(first),
             "lastName" := JStr(last),
             "street" := JStr("N/A"),
             "city" := JStr("N/A"),
             "state" := JStr("Kerala"),
             "postalCode" := JStr("000000"),
             "phone" := JStr(phone)])
  }

  /** The shape of `orderData` with its parts already computed. */
  function RequestBody(f: FormFields, products: seq<JValue>, subtotal: JValue, address: JValue): (r: JValue)
    ensures Get(r, "tax") == JNum(0) && Get(r, "shipping") == JNum(0)
    ensures Get(r, "total") == subtotal && Get(r, "subtotal") == subtotal
    ensures Get(r, "paymentMethod") == JStr("cod")
    ensures Get(r, "products") == JArr(products)
    ensures Get(r, "shippingAddress") == address
    ensures Get(r, "discount") == JUndef
    ensures Truthy(r)
  {
    JObj(map["userName" := JStr(f.userName),
             "userEmail" := JStr(f.userEmail),
             "phone" := JStr(f.phone),
             "products" := JArr(products),
             "subtotal" := subtotal,
             "tax" := JNum(0),
             "shipping" := JNum(0),
             "total" := subtotal,
             "shippingAddress" := address,
             "paymentMethod" := JStr("cod")])
  }

  /** `orderData` as the server receives it: no tax, no shipping, the total equal
      to the subtotal, cash on delivery. */
  function OrderPayload(f: FormFields, ps: seq<DraftProduct>): (r: JValue)
    ensures Get(r, "tax") == JNum(0) && Get(r, "shipping") == JNum(0)
    ensures Get(r, "total") == AsJson(ClientSubtotal(ps)) && Get(r, "subtotal") == AsJson(ClientSubtotal(ps))
    ensures Get(r, "paymentMethod") == JStr("cod")
    ensures Get(r, "products") == JArr(EmitProducts(ps))
    ensures Get(r, "shippingAddress") == PlaceholderAddress(f)
    ensures Get(r, "discount") == JUndef
  {
    RequestBody(f, EmitProducts(ps), AsJson(ClientSubtotal(ps)), PlaceholderAddress(f))
  }

  /** The endpoint's guard lets the form's request through exactly when it has products. */
  lemma PayloadPassesGuard(f: FormFields, ps: seq<DraftProduct>)
    ensures OrderRoute.AcceptsPayload(OrderPayload(f, ps)) <==> |ps| > 0
  {
  }

  /** The address the server builds from the form's request carries the placeholder
      fields, and the country defaults to "India". */
  lemma ServerReadsPlaceholderAddress(f: FormFields, ps: seq<DraftProduct>)
    ensures OrderRoute.AddressInputOf(OrderPayload(f, ps)) ==
              OrderModel.AddressInput(JStr(FirstWord(f.userName)), JStr(SecondWord(f.userName)), JStr("N/A"),
                                      JStr("N/A"), JStr("Kerala"), JStr("000000"), JStr("India"), JStr(f.phone))
  {
    PlaceholderFields(f);
  }

  lemma PlaceholderFields(f: FormFields)
    ensures OrderRoute.ShippingFields(PlaceholderAddress(f)) ==
              OrderModel.AddressInput(JStr(FirstWord(f.userName)), JStr(SecondWord(f.userName)), JStr("N/A"),
                                      JStr("N/A"), JStr("Kerala"), JStr("000000"), JStr("India"), JStr(f.phone))
  {
    var a := PlaceholderAddress(f);
    assert OrEmpty(Get(a, "firstName")) == JStr(FirstWord(f.userName));
    assert OrEmpty(Get(a, "lastName")) == JStr(SecondWord(f.userName));
    assert OrEmpty(Get(a, "phone")) == JStr(f.phone);
  }

  /** For one row with a numeric price and quantity, the server's line total is the client's. */
  lemma ServerLineMatches(p: DraftProduct)
    requires DraftLine(p).Finite?
    ensures LineAmount(NormalizeProduct(EmitProduct(p))) == DraftLine(p).value
  {
    var e := EmitProduct(p);
    var price := NumberOrZero(JStr(p.price));
    var qty := NumberOrZero(JStr(p.quantity));
    assert NumberOrZero(Get(e, "price")) == price;
    assert NumberOrZero(Get(e, "quantity")) == qty;
  }

  /** Row by row, the server's line totals for the emitted products are the client's lines. */
  lemma ServerLinesMatch(ps: seq<DraftProduct>, i: int)
    requires 0 <= i < |ps| && DraftLine(ps[i]).Finite?
    requires NormalizeProducts(EmitProducts(ps)).Ok?
    ensures LineAmounts(NormalizeProducts(EmitProducts(ps)).value)[i] == DraftLine(ps[i]).value
  {
    var es := EmitProducts(ps);
    assert NormalizeProducts(es).value[i] == NormalizeProduct(EmitProduct(ps[i]));
    ServerLineMatches(ps[i]);
  }

  /** Every emitted product is an object, so the server's normalisation never throws on them. */
  lemma EmittedProductsNormalize(ps: seq<DraftProduct>)
    ensures NormalizeProducts(EmitProducts(ps)).Ok?
  {
    var es := EmitProducts(ps);
    forall i | 0 <= i < |es| ensures !IsNullish(es[i]) {
      assert es[i] == EmitProduct(ps[i]);
    }
  }

  lemma ServerLinesMatchAll(ps: seq<DraftProduct>)
    requires forall i | 0 <= i < |ps| :: DraftLine(ps[i]).Finite?
    requires NormalizeProducts(EmitProducts(ps)).Ok?
    ensures var xs := LineAmounts(NormalizeProducts(EmitProducts(ps)).value);
            forall i {:trigger DraftLine(ps[i])} | 0 <= i < |ps| :: DraftLine(ps[i]) == Finite(xs[i])
  {
    forall i | 0 <= i < |ps|
      ensures DraftLine(ps[i]) == Finite(LineAmounts(NormalizeProducts(EmitProducts(ps)).value)[i])
    {
      ServerLinesMatch(ps, i);
    }
  }

  /** When every row has a numeric price and quantity, the server's subtotal over
      the emitted products is the client's. */
  lemma ServerSubtotalMatchesClient(ps: seq<DraftProduct>)
    requires forall i | 0 <= i < |ps| :: DraftLine(ps[i]).Finite?
    ensures NormalizeProducts(EmitProducts(ps)).Ok?
    ensures ClientSubtotal(ps) == Finite(Sum(LineAmounts(NormalizeProducts(EmitProducts(ps)).value)))
  {
    EmittedProductsNormalize(ps);
    ServerLinesMatchAll(ps);
    ClientSubtotalOfLines(ps, LineAmounts(NormalizeProducts(EmitProducts(ps)).value));
  }

  /** Lines that are all numbers add up to the sum of their values. */
  lemma ClientSubtotalOfLines(ps: seq<DraftProduct>, xs: seq<int>)
    requires |xs| == |ps|
    requires forall i {:trigger DraftLine(ps[i])} | 0 <= i < |ps| :: DraftLine(ps[i]) == Finite(xs[i])
    ensures ClientSubtotal(ps) == Finite(Sum(xs))
  {
    var lines := DraftLines(ps);
    assert ClientSubtotal(ps) == SumLines(Finite(0), lines);
    SumLinesFinite(0, lines, xs);
    assert SumLines(Finite(0), lines) == Finite(Sum(xs));
  }

  /** ... and with no tax, shipping or discount in the request its total is the client's total too. */
  lemma ServerTotalsMatchClient(f: FormFields, ps: seq<DraftProduct>)
    requires forall i | 0 <= i < |ps| :: DraftLine(ps[i]).Finite?
    ensures var normalized := NormalizeProducts(EmitProducts(ps));
            && normalized.Ok?
            && ClientSubtotal(ps).Finite?
            && ComputeTotals(normalized.value, OrderPayload(f, ps)).subtotal == ClientSubtotal(ps).value
            && ComputeTotals(normalized.value, OrderPayload(f, ps)).total == ClientSubtotal(ps)
  {
    ServerSubtotalMatchesClient(ps);
    TotalWithoutExtras(NormalizeProducts(EmitProducts(ps)).value, OrderPayload(f, ps));
  }
}

=== FILE: checkout.dfy ===
/** The checkout page: it sends the visitor back to the order form when the draft
    has no name or no products, shows the draft's subtotal, and on "place order"
    either sends the visitor to the address page or posts the draft, with its
    address, to the order endpoint. */
module Checkout {
  import opened Base
  import opened Json
  import opened Coerce
  import opened Totals
  import opened Draft
  import Normalize
  import OrderRoute
  import OrderModel
  import Builder
  import Location

  /** `!orderData?.user?.name || !orderData?.products?.length` */
  predicate ShouldRedirect(d: OrderDraft) {
    d.user.name == "" || |d.products| == 0
  }

  /** The draft the browser starts with and returns to after an order is placed. */
  function ClearedDraft(): OrderDraft {
    OrderDraft(UserInfo("", "", ""), [], None)
  }

  /** A cleared draft never reaches checkout. */
  lemma ClearedDraftRedirects()
    ensures ShouldRedirect(ClearedDraft())
    ensures ClearedDraft().shippingAddress.None?
  {
  }

  // ---------------------------------------------------------------- the page's subtotal

  /** `Number(p.price || 0) * Number(p.quantity || 0)` for each stored product. */
  function CheckoutLines(products: seq<JValue>): (r: seq<Number>)
    ensures |r| == |products|
    ensures forall i | 0 <= i < |products| :: r[i] == LineNumber(Get(products[i], "price"), Get(products[i], "quantity"))
  {
    seq(|products|, i requires 0 <= i < |products| => LineNumber(Get(products[i], "price"), Get(products[i], "quantity")))
  }

  /** The subtotal the page shows: the lines added from 0, and 0 when that sum is
      `NaN` (`... || 0`). Reading `price` of a `null` or `undefined` product
      throws, and the page fails to render. */
  function CheckoutSubtotal(products: seq<JValue>): (r: Result<int>)
    ensures r.Ok? <==> forall i | 0 <= i < |products| :: !IsNullish(products[i])
    ensures r.Err? ==> r.message == Normalize.NullProductError
    ensures products == [] ==> r == Ok(0)
  {
    if exists i | 0 <= i < |products| :: IsNullish(products[i]) then Err(Normalize.NullProductError)
    else Ok(OrZero(SumLines(Finite(0), CheckoutLines(products))))
  }

  /** With every line a number, the page shows their sum. */
  lemma CheckoutSubtotalFinite(products: seq<JValue>, xs: seq<int>)
    requires forall i | 0 <= i < |products| :: !IsNullish(products[i])
    requires |xs| == |products|
    requires forall i {:trigger products[i]} | 0 <= i < |products| ::
               LineNumber(Get(products[i], "price"), Get(products[i], "quantity")) == Finite(xs[i])
    ensures CheckoutSubtotal(products) == Ok(Sum(xs))
  {
    SumLinesFinite(0, CheckoutLines(products), xs);
  }

  /** One line that is not a number makes the page show a subtotal of 0. */
  lemma CheckoutSubtotalNaN(products: seq<JValue>, k: int)
    requires forall i | 0 <= i < |products| :: !IsNullish(products[i])
    requires 0 <= k < |products| && LineNumber(Get(products[k], "price"), Get(products[k], "quantity")).NaN?
    ensures CheckoutSubtotal(products) == Ok(0)
  {
    SumLinesNaN(Finite(0), CheckoutLines(products), k);
  }

  // ---------------------------------------------------------------- the request

  /** The address object as the draft stores it. */
  function AddressObject(a: ShippingAddress): (r: JValue)
    ensures Get(r, "street") == a.street && Get(r, "city") == a.city && Get(r, "state") == a.state
    ensures Get(r, "postalCode") == a.postalCode && Get(r, "country") == a.country && Get(r, "phone") == a.phone
    ensures Get(r, "userName") == a.userName
    ensures Get(r, "firstName") == JUndef && Get(r, "lastName") == JUndef
  {
    JObj(map["userName" := a.userName, "phone" := a.phone, "alternatePhone" := a.alternatePhone,
             "postalCode" := a.postalCode, "locality" := a.locality, "street" := a.street,
             "city" := a.city, "district" := a.district, "state" := a.state,
             "country" := a.country, "landmark" := a.landmark, "addressType" := a.addressType])
  }

  datatype Placement =
    | PageError(message: string)
    | GoToLocation
    | Send(body: JValue)

  /** "Place order": without an address the visitor is sent to the address page;
      otherwise the user fields, the stored products, the shown subtotal as both
      subtotal and total, no tax, no shipping, the address and cash on delivery. */
  function PlaceOrder(d: OrderDraft): (r: Placement)
    ensures r.PageError? <==> CheckoutSubtotal(d.products).Err?
    ensures r.GoToLocation? <==> CheckoutSubtotal(d.products).Ok? && d.shippingAddress.None?
    ensures r.Send? ==>
              var subtotal := JNum(CheckoutSubtotal(d.products).value);
              && Get(r.body, "products") == JArr(d.products)
              && Get(r.body, "subtotal") == subtotal && Get(r.body, "total") == subtotal
              && Get(r.body, "tax") == JNum(0) && Get(r.body, "shipping") == JNum(0)
              && Get(r.body, "discount") == JUndef
              && Get(r.body, "paymentMethod") == JStr("cod")
              && Get(r.body, "shippingAddress") == AddressObject(d.shippingAddress.value)
  {
    match CheckoutSubtotal(d.products)
    case Err(e) => PageError(e)
    case Ok(subtotal) =>
      if d.shippingAddress.None? then GoToLocation
      else Send(Builder.RequestBody(Builder.FormFields(d.user.name, d.user.email, d.user.phone),
                                    d.products, JNum(subtotal), AddressObject(d.shippingAddress.value)))
  }

  // ---------------------------------------------------------------- what the endpoint makes of it

  /** The endpoint's guard lets a checkout request through exactly when the draft
      has products, so a draft the page does not send back always passes it. */
  lemma CheckoutPassesGuard(d: OrderDraft)
    ensures PlaceOrder(d).Send? ==> (OrderRoute.AcceptsPayload(PlaceOrder(d).body) <==> |d.products| > 0)
    ensures PlaceOrder(d).Send? && !ShouldRedirect(d) ==> OrderRoute.AcceptsPayload(PlaceOrder(d).body)
  {
  }

  /** The endpoint ignores the page's subtotal and total: it recomputes the
      subtotal from the products, and with no tax, shipping or discount its total
      is that subtotal. */
  lemma CheckoutServerTotal(d: OrderDraft)
    requires PlaceOrder(d).Send?
    ensures Normalize.NormalizeProducts(d.products).Ok?
    ensures var t := ComputeTotals(Normalize.NormalizeProducts(d.products).value, PlaceOrder(d).body);
            t.total == Finite(t.subtotal)
  {
    var body := PlaceOrder(d).body;
    TotalWithoutExtras(Normalize.NormalizeProducts(d.products).value, body);
  }

  /** The endpoint's line total for a product is the page's line, with `NaN` read as 0. */
  lemma ServerLine(p: JValue)
    requires !IsNullish(p)
    ensures LineAmount(Normalize.NormalizeProduct(p)) == OrZero(LineNumber(Get(p, "price"), Get(p, "quantity")))
  {
  }

  /** When every line is a number, the endpoint's subtotal is the one the page showed. */
  lemma CheckoutSubtotalMatchesServer(products: seq<JValue>)
    requires forall i | 0 <= i < |products| :: !IsNullish(products[i])
    requires forall i | 0 <= i < |products| :: LineNumber(Get(products[i], "price"), Get(products[i], "quantity")).Finite?
    ensures Normalize.NormalizeProducts(products).Ok?
    ensures CheckoutSubtotal(products) == Ok(Sum(LineAmounts(Normalize.NormalizeProducts(products).value)))
  {
    var xs := LineAmounts(Normalize.NormalizeProducts(products).value);
    forall i | 0 <= i < |products|
      ensures LineNumber(Get(products[i], "price"), Get(products[i], "quantity")) == Finite(xs[i])
    {
      ServerLine(products[i]);
    }
    CheckoutSubtotalFinite(products, xs);
  }

  /** The two subtotals part ways on a line that is not a number: the page shows 0,
      while the endpoint counts that line as 0 and adds up the others. */
  lemma SubtotalsDisagreeOnNaN(products: seq<JValue>, k: int, xs: seq<int>)
    requires forall i | 0 <= i < |products| :: !IsNullish(products[i])
    requires 0 <= k < |products| && LineNumber(Get(products[k], "price"), Get(products[k], "quantity")).NaN?
    requires |xs| == |products| && xs[k] == 0
    requires forall i {:trigger products[i]} | 0 <= i < |products| && i != k ::
               LineNumber(Get(products[i], "price"), Get(products[i], "quantity")) == Finite(xs[i])
    ensures CheckoutSubtotal(products) == Ok(0)
    ensures Normalize.NormalizeProducts(products).Ok?
    ensures Sum(LineAmounts(Normalize.NormalizeProducts(products).value)) == Sum(xs)
  {
    CheckoutSubtotalNaN(products, k);
    var ns := Normalize.NormalizeProducts(products).value;
    forall i | 0 <= i < |products| ensures LineAmounts(ns)[i] == xs[i] {
      ServerLine(products[i]);
    }
    SamePointwise(LineAmounts(ns), xs);
  }

  lemma SamePointwise(ys: seq<int>, xs: seq<int>)
    requires |ys| == |xs| && forall i | 0 <= i < |xs| :: ys[i] == xs[i]
    ensures Sum(ys) == Sum(xs)
  {
    assert ys == xs;
  }

  /** The address page's name never reaches the stored order: the endpoint reads
      `firstName` and `lastName`, which the address object does not have, so both
      are stored empty; street, city, state, postal code and phone come through. */
  lemma CheckoutAddressAsStored(a: ShippingAddress)
    ensures var s := OrderRoute.ShippingFields(AddressObject(a));
            && s.firstName == JStr("") && s.lastName == JStr("")
            && s.street == Normalize.OrEmpty(a.street) && s.city == Normalize.OrEmpty(a.city)
            && s.state == Normalize.OrEmpty(a.state) && s.postalCode == Normalize.OrEmpty(a.postalCode)
            && s.phone == Normalize.OrEmpty(a.phone)
            && s.country == Or(a.country, JStr("India"))
  {
  }

  /** The whole path through the address page: once "continue" accepts an address,
      "place order" posts it, and the endpoint keeps its street and phone as typed. */
  lemma ContinueThenPlace(d: OrderDraft, a: ShippingAddress)
    requires CheckoutSubtotal(d.products).Ok?
    requires Location.Continue(d, a).Proceed?
    ensures var p := PlaceOrder(Location.Continue(d, a).draft);
            && p.Send?
            && OrderRoute.AddressInputOf(p.body).street == a.street
            && OrderRoute.AddressInputOf(p.body).phone == a.phone
  {
    var d2 := Location.Continue(d, a).draft;
    assert d2.products == d.products;
    CheckoutAddressAsStored(a);
  }
}

=== FILE: coerce.dfy ===
/** The JavaScript conversions the order pipeline relies on: `String(v)`,
    `String.prototype.trim`, `Number(v)` and the arithmetic of numbers that may be `NaN`. */
module Coerce {
  import opened Json

  /** A JavaScript number restricted to whole values, or `NaN`. */
  datatype Number = Finite(value: int) | NaN

  // ---------------------------------------------------------------- text

  /** The WhiteSpace and LineTerminator code points that `trim` removes. */
  predicate IsWhitespace(c: char) {
    var k := c as int;
    k == 0x09 || k == 0x0A || k == 0x0B || k == 0x0C || k == 0x0D || k == 0x20
    || k == 0xA0 || k == 0x1680 || (0x2000 <= k <= 0x200A) || k == 0x2028
    || k == 0x2029 || k == 0x202F || k == 0x205F || k == 0x3000 || k == 0xFEFF
  }

  predicate AllWhitespace(s: string) {
    forall i | 0 <= i < |s| :: IsWhitespace(s[i])
  }

  /** `s` without its leading whitespace. */
  function TrimStart(s: string): (r: string)
    ensures |r| <= |s| && r == s[|s| - |r|..]
    ensures AllWhitespace(s[..|s| - |r|])
    ensures r == [] || !IsWhitespace(r[0])
    decreases |s|
  {
    if s == [] || !IsWhitespace(s[0]) then s
    else
      var r := TrimStart(s[1..]);
      assert s[..|s| - |r|] == [s[0]] + s[1..][..|s| - 1 - |r|];
      r
  }

  /** `s` without its trailing whitespace. */
  function TrimEnd(s: string): (r: string)
    ensures |r| <= |s| && r == s[..|r|]
    ensures AllWhitespace(s[|r|..])
    ensures r == [] || !IsWhitespace(r[|r| - 1])
    decreases |s|
  {
    if s == [] || !IsWhitespace(s[|s| - 1]) then s
    else
      var r := TrimEnd(s[..|s| - 1]);
      assert s[|r|..] == s[..|s| - 1][|r|..] + [s[|s| - 1]];
      r
  }

  /** `s.trim()` */
  function Trim(s: string): string {
    TrimEnd(TrimStart(s))
  }

  /** Trimming leaves nothing exactly when the text is whitespace only. */
  lemma TrimBlankIff(s: string)
    ensures Trim(s) == [] <==> AllWhitespace(s)
  {
    var t := TrimStart(s);
    if Trim(s) == [] {
      assert AllWhitespace(t[0..]);
      assert s == s[..|s| - |t|] + t;
    } else {
      var k := |s| - |t|;
      assert t != [] && s[k] == t[0];
    }
  }

  /** Text that starts and ends with a visible character is left alone by `trim`. */
  lemma TrimKeepsVisibleEnds(s: string)
    requires s != [] && !IsWhitespace(s[0]) && !IsWhitespace(s[|s| - 1])
    ensures Trim(s) == s
  {
  }

  // ---------------------------------------------------------------- decimal integers

  predicate IsDigit(c: char) {
    '0' <= c <= '9'
  }

  predicate AllDigits(s: string) {
    forall i | 0 <= i < |s| :: IsDigit(s[i])
  }

  function DigitChar(d: nat): (c: char)
    requires d < 10
    ensures IsDigit(c)
  {
    (('0' as int) + d) as char
  }

  function DigitValue(c: char): (d: nat)
    requires IsDigit(c)
    ensures d < 10
  {
    (c as int) - ('0' as int)
  }

  /** The base-ten numeral of a natural number, without leading zeros. */
  function NatToString(n: nat): (r: string)
    ensures r != [] && AllDigits(r)
    ensures r[0] != '0' || n == 0
    decreases n
  {
    if n < 10 then [DigitChar(n)] else NatToString(n / 10) + [DigitChar(n % 10)]
  }

  /** The value of a numeral. */
  function DigitsValue(s: string): nat
    requires AllDigits(s)
    decreases |s|
  {
    if s == [] then 0 else DigitsValue(s[..|s| - 1]) * 10 + DigitValue(s[|s| - 1])
  }

  lemma {:induction false} DigitsValueOfNatToString(n: nat)
    ensures DigitsValue(NatToString(n)) == n
    decreases n
  {
    if n >= 10 {
      DigitsValueOfNatToString(n / 10);
      var r := NatToString(n);
      assert r[..|r| - 1] == NatToString(n / 10);
    }
  }

  /** `String(n)` for a whole number. */
  function IntToString(n: int): string {
    if n < 0 then "-" + NatToString(-n) else NatToString(n)
  }

  // ---------------------------------------------------------------- binary, octal and hexadecimal literals

  /** The digit a character stands for in bases up to 16 (`a`-`f` in either case);
      16 for any other character. */
  function RadixDigit(c: char): (d: nat)
    ensures d <= 16
    ensures IsDigit(c) ==> d == DigitValue(c)
    ensures d < 16 <==> IsDigit(c) || 'a' <= c <= 'f' || 'A' <= c <= 'F'
  {
    if IsDigit(c) then DigitValue(c)
    else if 'a' <= c <= 'f' then (c as int) - ('a' as int) + 10
    else if 'A' <= c <= 'F' then (c as int) - ('A' as int) + 10
    else 16
  }

  predicate AllRadixDigits(s: string, base: nat) {
    forall i | 0 <= i < |s| :: RadixDigit(s[i]) < base
  }

  /** The value of a numeral in `base`. */
  function RadixValue(s: string, base: nat): nat
    requires AllRadixDigits(s, base)
    decreases |s|
  {
    if s == [] then 0 else RadixValue(s[..|s| - 1], base) * base + RadixDigit(s[|s| - 1])
  }

  /** The base announced by the letter after a leading `0`: `b`, `o` or `x` in
      either case; 0 for any other character. */
  function PrefixBase(c: char): (b: nat)
    ensures b == 0 || b == 2 || b == 8 || b == 16
    ensures b != 0 ==> !IsDigit(c)
  {
    if c == 'b' || c == 'B' then 2
    else if c == 'o' || c == 'O' then 8
    else if c == 'x' || c == 'X' then 16
    else 0
  }

  /** An unsigned `0b…`, `0o…` or `0x…` literal with at least one digit of its base. */
  predicate IsRadixLiteral(t: string) {
    |t| > 2 && t[0] == '0' && PrefixBase(t[1]) != 0 && AllRadixDigits(t[2..], PrefixBase(t[1]))
  }

  function RadixDigitChar(d: nat): (c: char)
    requires d < 16
    ensures RadixDigit(c) == d
  {
    if d < 10 then DigitChar(d) else (('a' as int) + d - 10) as char
  }

  /** Euclidean division by a base: the quotient of a number at least the base is
      smaller than it, and quotient and remainder rebuild it. */
  lemma DivModBase(n: nat, base: nat)
    requires 2 <= base
    ensures n % base < base && n == (n / base) * base + n % base
    ensures n >= base ==> 1 <= n / base < n
  {
  }

  /** `n.toString(base)`: the numeral of `n` in `base`, lower-case, without leading zeros. */
  function NatToRadix(n: nat, base: nat): (r: string)
    requires 2 <= base <= 16
    ensures r != [] && AllRadixDigits(r, base)
    decreases n
  {
    if n < base then [RadixDigitChar(n)]
    else
      DivModBase(n, base);
      NatToRadix(n / base, base) + [RadixDigitChar(n % base)]
  }

  lemma {:induction false} RadixValueOfNatToRadix(n: nat, base: nat)
    requires 2 <= base <= 16
    ensures RadixValue(NatToRadix(n, base), base) == n
    decreases n
  {
    if n >= base {
      DivModBase(n, base);
      RadixValueOfNatToRadix(n / base, base);
      var r := NatToRadix(n, base);
      assert r[..|r| - 1] == NatToRadix(n / base, base);
      assert RadixDigit(r[|r| - 1]) == n % base;
    }
  }

  /** `Number(s)` for a string: blank text is 0, an optionally signed decimal
      numeral is its value, an unsigned `0b`/`0o`/`0x` literal is its value in
      that base, anything else is `NaN`. */
  function ParseNumberString(s: string): Number {
    var t := Trim(s);
    if t == [] then Finite(0)
    else if t[0] == '-' && |t| > 1 && AllDigits(t[1..]) then Finite(0 - DigitsValue(t[1..]) as int)
    else if t[0] == '+' && |t| > 1 && AllDigits(t[1..]) then Finite(DigitsValue(t[1..]))
    else if AllDigits(t) then Finite(DigitsValue(t))
    else RadixNumber(t)
  }

  /** `Number(t)` for trimmed text that is not a decimal numeral: the value of a
      `0b`/`0o`/`0x` literal, `NaN` for anything else. */
  function RadixNumber(t: string): (r: Number)
    ensures r.Finite? <==> IsRadixLiteral(t)
    ensures r.Finite? ==> r.value >= 0
  {
    if IsRadixLiteral(t) then Finite(RadixValue(t[2..], PrefixBase(t[1]))) else NaN
  }

  /** Reading back a prefixed literal: `Number("0x" + n.toString(16)) === n`, and
      likewise for `0b` with base 2 and `0o` with base 8, in either case. */
  lemma ParseRadixLiteral(n: nat, letter: char)
    requires PrefixBase(letter) != 0
    ensures ParseNumberString("0" + [letter] + NatToRadix(n, PrefixBase(letter))) == Finite(n)
  {
    var base := PrefixBase(letter);
    var digits := NatToRadix(n, base);
    var s := "0" + [letter] + digits;
    assert s[|s| - 1] == digits[|digits| - 1];
    TrimKeepsVisibleEnds(s);
    assert s[2..] == digits;
    assert !IsDigit(s[1]);
    RadixValueOfNatToRadix(n, base);
  }

  /** A prefix needs at least one digit after it (`Number("0x")` is `NaN`), and no
      sign may precede it (`Number("-0x1f")` is `NaN`). */
  lemma RadixLiteralRefusals(letter: char, digits: string)
    requires PrefixBase(letter) != 0 && digits != [] && AllRadixDigits(digits, PrefixBase(letter))
    ensures ParseNumberString(['0', letter]) == NaN
    ensures ParseNumberString(['-', '0', letter] + digits) == NaN
    ensures ParseNumberString(['+', '0', letter] + digits) == NaN
  {
    BarePrefix(letter);
    SignedRadixLiteral(letter, digits, '-');
    SignedRadixLiteral(letter, digits, '+');
  }

  lemma BarePrefix(letter: char)
    requires PrefixBase(letter) != 0
    ensures ParseNumberString(['0', letter]) == NaN
  {
    var s := ['0', letter];
    TrimKeepsVisibleEnds(s);
    assert !IsDigit(s[1]);
  }

  lemma SignedRadixLiteral(letter: char, digits: string, sign: char)
    requires PrefixBase(letter) != 0 && digits != [] && AllRadixDigits(digits, PrefixBase(letter))
    requires sign == '-' || sign == '+'
    ensures ParseNumberString([sign, '0', letter] + digits) == NaN
  {
    var s := [sign, '0', letter] + digits;
    assert RadixDigit(s[|s| - 1]) < 16;
    TrimKeepsVisibleEnds(s);
    assert !IsDigit(s[1..][1]) && !IsDigit(s[0]);
  }

  /** A numeral has no whitespace at either end, so `trim` leaves it alone. */
  lemma TrimIntToString(n: int)
    ensures Trim(IntToString(n)) == IntToString(n)
  {
    var s := IntToString(n);
    var digits := NatToString(if n < 0 then -n else n);
    assert s[|s| - 1] == digits[|digits| - 1];
    TrimKeepsVisibleEnds(s);
  }

  /** Reading back a printed whole number gives the number: `Number(String(n)) === n`. */
  lemma ParseIntToString(n: int)
    ensures ParseNumberString(IntToString(n)) == Finite(n)
  {
    TrimIntToString(n);
    var s := IntToString(n);
    if n < 0 {
      var digits := NatToString(-n);
      assert s[1..] == digits;
      DigitsValueOfNatToString(-n);
    } else {
      DigitsValueOfNatToString(n);
    }
  }

  // ---------------------------------------------------------------- String(v) and Number(v)

  /** `strs.join(sep)` */
  function JoinWith(strs: seq<string>, sep: string): string
    decreases |strs|
  {
    if strs == [] then ""
    else if |strs| == 1 then strs[0]
    else JoinWith(strs[..|strs| - 1], sep) + sep + strs[|strs| - 1]
  }

  /** `s.split(sep)` for a one-character separator: the pieces between separators,
      at least one, none containing the separator. */
  function Split(s: string, sep: char): (r: seq<string>)
    ensures |r| >= 1
    ensures forall i | 0 <= i < |r| :: sep !in r[i]
    decreases |s|
  {
    if s == [] then [""]
    else
      var init := Split(s[..|s| - 1], sep);
      var c := s[|s| - 1];
      if c == sep then init + [""]
      else
        var r := init[..|init| - 1] + [init[|init| - 1] + [c]];
        assert forall i | 0 <= i < |r| - 1 :: r[i] == init[i];
        r
  }

  /** Joining the pieces with the separator gives back the text. */
  lemma {:induction false} SplitJoin(s: string, sep: char)
    ensures JoinWith(Split(s, sep), [sep]) == s
    decreases |s|
  {
    if s != [] {
      var init := Split(s[..|s| - 1], sep);
      SplitJoin(s[..|s| - 1], sep);
      var r := Split(s, sep);
      var k := |init| - 1;
      if s[|s| - 1] == sep {
        assert r[..|r| - 1] == init;
      } else if k > 0 {
        assert r[..|r| - 1] == init[..k];
        assert JoinWith(init, [sep]) == JoinWith(init[..k], [sep]) + [sep] + init[k];
      }
    }
  }

  /** Text without the separator is a single piece. */
  lemma {:induction false} SplitWithoutSeparator(s: string, sep: char)
    requires sep !in s
    ensures Split(s, sep) == [s]
    decreases |s|
  {
    if s != [] {
      var t := s[..|s| - 1];
      assert sep !in t by {
        forall i | 0 <= i < |t| ensures t[i] != sep {
          assert t[i] == s[i];
        }
      }
      SplitWithoutSeparator(s[..|s| - 1], sep);
      assert s[..|s| - 1] + [s[|s| - 1]] == s;
    }
  }

  /** Appending text without the separator extends the last piece only. */
  lemma {:induction false} SplitExtendsLast(p: string, b: string, sep: char)
    requires sep !in b
    ensures var ps := Split(p, sep);
            Split(p + b, sep) == ps[..|ps| - 1] + [ps[|ps| - 1] + b]
    decreases |b|
  {
    var ps := Split(p, sep);
    if b == [] {
      assert p + b == p;
      assert ps[|ps| - 1] + b == ps[|ps| - 1];
      assert ps[..|ps| - 1] + [ps[|ps| - 1]] == ps;
    } else {
      var b' := b[..|b| - 1];
      var c := b[|b| - 1];
      assert c in b;
      assert sep !in b' by {
        forall i | 0 <= i < |b'| ensures b'[i] != sep {
          assert b'[i] == b[i];
        }
      }
      SplitExtendsLast(p, b', sep);
      assert (p + b)[..|p + b| - 1] == p + b';
      assert (p + b)[|p + b| - 1] == c;
      assert ps[|ps| - 1] + b' + [c] == ps[|ps| - 1] + b;
    }
  }

  /** Two separator-free words around one separator split into exactly those words. */
  lemma {:induction false} SplitTwoWords(a: string, b: string, sep: char)
    requires sep !in a && sep !in b
    ensures Split(a + [sep] + b, sep) == [a, b]
  {
    var p := a + [sep];
    assert Split(p, sep) == [a, ""] by {
      assert p[..|p| - 1] == a && p[|p| - 1] == sep;
      SplitWithoutSeparator(a, sep);
    }
    SplitExtendsLast(p, b, sep);
    var ps := Split(p, sep);
    assert ps[..|ps| - 1] + [ps[|ps| - 1] + b] == [a, b] by {
      assert ps[..|ps| - 1] == [a];
      assert ps[|ps| - 1] + b == b;
    }
  }

  /** `String(v)` and `Number(v)` throw a `TypeError` here: an object with its own
      `toString` key (which `JSON.parse` makes a non-function), or an array holding
      such a value. `JsString` and `ToNumber` read these as plain objects instead. */
  predicate ConversionThrows(v: JValue)
    decreases v
  {
    match v
    case JObj(fields) => "toString" in fields
    case JArr(items) => exists i | 0 <= i < |items| :: ConversionThrows(items[i])
    case _ => false
  }

  /** `String(v)`. Arrays print as their elements joined by commas, with
      `null` and `undefined` elements printed as empty text. */
  function JsString(v: JValue): string
    decreases v
  {
    match v
    case JUndef => "undefined"
    case JNull => "null"
    case JBool(b) => if b then "true" else "false"
    case JNum(n) => IntToString(n)
    case JNaN => "NaN"
    case JStr(s) => s
    case JObj(_) => "[object Object]"
    case JArr(items) =>
      JoinWith(seq(|items|, i requires 0 <= i < |items| =>
                 if IsNullish(items[i]) then "" else JsString(items[i])), ",")
  }

  /** `Number(v)`. Arrays and plain objects convert through their string form. */
  function ToNumber(v: JValue): Number {
    match v
    case JUndef => NaN
    case JNull => Finite(0)
    case JBool(b) => if b then Finite(1) else Finite(0)
    case JNum(n) => Finite(n)
    case JNaN => NaN
    case JStr(s) => ParseNumberString(s)
    case JArr(_) => ParseNumberString(JsString(v))
    case JObj(_) => ParseNumberString(JsString(v))
  }

  /** `Number(v || 0)`: a missing or falsy value reads as 0 and a number as itself. */
  function NumberOrZero(v: JValue): (r: Number)
    ensures !Truthy(v) ==> r == Finite(0)
    ensures v.JNum? ==> r == Finite(v.n)
    ensures v.JStr? && v.s != "" ==> r == ParseNumberString(v.s)
  {
    ToNumber(Or(v, JNum(0)))
  }

  /** A one-element array converts like its element: `Number([5]) === 5`. */
  lemma SingletonArrayNumber(n: int)
    ensures ToNumber(JArr([JNum(n)])) == Finite(n)
  {
    var strs := seq(1, i requires 0 <= i < 1 => if IsNullish(JArr([JNum(n)]).items[i]) then "" else JsString(JArr([JNum(n)]).items[i]));
    assert strs == [IntToString(n)];
    ParseIntToString(n);
  }

  // ---------------------------------------------------------------- arithmetic

  function Add(a: Number, b: Number): (r: Number)
    ensures r.Finite? <==> a.Finite? && b.Finite?
  {
    if a.Finite? && b.Finite? then Finite(a.value + b.value) else NaN
  }

  function Sub(a: Number, b: Number): (r: Number)
    ensures r.Finite? <==> a.Finite? && b.Finite?
  {
    if a.Finite? && b.Finite? then Finite(a.value - b.value) else NaN
  }

  function Mul(a: Number, b: Number): (r: Number)
    ensures r.Finite? <==> a.Finite? && b.Finite?
  {
    if a.Finite? && b.Finite? then Finite(a.value * b.value) else NaN
  }

  /** `x || 0` for a number: `NaN` becomes 0. */
  function OrZero(x: Number): (r: int)
    ensures x.Finite? ==> r == x.value
    ensures x.NaN? ==> r == 0
  {
    if x.Finite? then x.value else 0
  }

  /** A number as a JavaScript value. */
  function AsJs(x: Number): (v: JValue)
    ensures ToNumber(v) == x
  {
    if x.Finite? then JNum(x.value) else JNaN
  }

  /** A number as `JSON.stringify` writes it: `NaN` is written as `null`. */
  function AsJson(x: Number): (v: JValue)
    ensures x.Finite? ==> v == JNum(x.value)
    ensures x.NaN? ==> v == JNull
  {
    if x.Finite? then JNum(x.value) else JNull
  }
}

=== FILE: createorder.dfy ===
/** The order-creation endpoint: the payload guard, the generated identifiers,
    the per-product normalisation, the totals, the defaulted order object, and
    the save through the Order schema. */
module OrderRoute {
  import opened Base
  import opened Json
  import opened Coerce
  import opened Detector
  import opened Normalize
  import opened Totals
  import opened Schema
  import opened OrderModel

  /** What the handler gets from outside: the order number the generator returns,
      the QR encoder, the site address, and the number the save hook would draw. */
  datatype Services = Services(orderNumber: string, toDataUrl: string -> string, baseUrl: string, hookOrderId: string)

  function Hook(s: Services): HookServices {
    HookServices(s.hookOrderId, s.toDataUrl, s.baseUrl)
  }

  datatype Response =
    | BadRequest(message: string)
    | Created(order: Order)
    | ServerError(message: string)
  {
    function Status(): int {
      match this
      case BadRequest(_) => 400
      case Created(_) => 200
      case ServerError(_) => 500
    }
  }

  const InvalidPayload := "Invalid payload: products required"

  /** The guard: a truthy payload whose `products` is a non-empty array. */
  predicate AcceptsPayload(data: JValue) {
    Truthy(data) && IsNonEmptyArray(Get(data, "products"))
  }

  // ---------------------------------------------------------------- the object handed to Order.create

  function TextInput(t: TextFields): TextDataInput {
    TextDataInput(t.name, t.className, t.schoolName, t.section)
  }

  function CustomizationInputOf(c: NormCustomization): CustomizationInput {
    CustomizationInput(JBool(true), TextInput(c.textData), JArr(c.photoUrls), c.font, c.color,
                       c.style, JBool(c.isCartoonStyle), c.previewImage, c.printFile)
  }

  function ProductInputOf(n: NormProduct): ProductInput {
    ProductInput(n.productId, n.name, AsJs(n.price), AsJs(n.quantity), AsJs(n.totalPrice), n.imageUrl,
                 JBool(n.isCustomized),
                 if n.customization.Some? then Some(CustomizationInputOf(n.customization.value)) else None)
  }

  /** The `shippingAddress` block: every field `|| ""` except the country, `|| "India"`. */
  function AddressInputOf(data: JValue): AddressInput {
    ShippingFields(Get(data, "shippingAddress"))
  }

  /** The fields read from the payload's address `a` (`undefined` when it has none). */
  function ShippingFields(a: JValue): (r: AddressInput)
    ensures Canonical(r.firstName) && Canonical(r.lastName) && Canonical(r.street) && Canonical(r.city)
    ensures Canonical(r.state) && Canonical(r.postalCode) && Canonical(r.phone)
    ensures Truthy(r.country)
    ensures !Truthy(Get(a, "country")) ==> r.country == JStr("India")
    ensures Truthy(Get(a, "country")) ==> r.country == Get(a, "country")
    ensures r.firstName == OrEmpty(Get(a, "firstName")) && r.lastName == OrEmpty(Get(a, "lastName"))
    ensures r.street == OrEmpty(Get(a, "street")) && r.city == OrEmpty(Get(a, "city"))
    ensures r.state == OrEmpty(Get(a, "state")) && r.postalCode == OrEmpty(Get(a, "postalCode"))
    ensures r.phone == OrEmpty(Get(a, "phone"))
  {
    AddressInput(OrEmpty(Get(a, "firstName")), OrEmpty(Get(a, "lastName")), OrEmpty(Get(a, "street")),
                 OrEmpty(Get(a, "city")), OrEmpty(Get(a, "state")), OrEmpty(Get(a, "postalCode")),
                 Or(Get(a, "country"), JStr("India")), OrEmpty(Get(a, "phone")))
  }

  /** `newOrderData`: the generated identifiers, the user fields with their
      fallbacks, the normalised products, the totals, and the fixed status. */
  function NewOrderData(data: JValue, orderNumber: string, qrCode: string,
                        products: seq<NormProduct>, t: OrderTotals): (r: OrderInput)
    ensures r.status == JStr("pending") && r.printFileUrl == JStr("") && r.driveFolder == JStr("")
    ensures Truthy(r.paymentMethod) && Truthy(r.paymentStatus)
    ensures Canonical(r.userName) && Canonical(r.userEmail) && Canonical(r.phone)
    ensures r.userId == JNull || Truthy(r.userId)
    ensures |r.products| == |products|
  {
    OrderInput(
      JStr(orderNumber), JStr(qrCode),
      Or(Get(data, "userId"), JNull),
      OrEmpty(Get(data, "userName")),
      OrEmpty(Get(data, "userEmail")),
      OrEmpty(Get(data, "phone")),
      seq(|products|, i requires 0 <= i < |products| => ProductInputOf(products[i])),
      JNum(t.subtotal), AsJs(t.tax), AsJs(t.shipping), AsJs(t.discount), AsJs(t.total),
      AddressInputOf(data),
      Or(Get(data, "paymentMethod"), JStr("cod")),
      Or(Get(data, "paymentStatus"), JStr("pending")),
      JStr("pending"), JStr(""), JStr(""),
      OrEmpty(Get(data, "previewImage")))
  }

  /** Everything after the guard up to `Order.create`: the products are
      normalised (a `null` element throws) and the order object assembled. */
  function Assemble(data: JValue, s: Services): (r: Result<OrderInput>)
    requires AcceptsPayload(data)
    ensures r.Ok? <==> forall i | 0 <= i < |Get(data, "products").items| :: !IsNullish(Get(data, "products").items[i])
  {
    var normalized :- NormalizeProducts(Get(data, "products").items);
    var t := ComputeTotals(normalized, data);
    Ok(NewOrderData(data, s.orderNumber, s.toDataUrl(TrackingLink(s.baseUrl, s.orderNumber)), normalized, t))
  }

  /** The route never hands `null` to a path with a default: each such field is a
      number or `NaN`, a truthy `||` result, a fixed literal or a boolean. */
  lemma AssembledHasNoNullDefaults(data: JValue, s: Services)
    requires AcceptsPayload(data) && Assemble(data, s).Ok?
    ensures NoNullOnDefaultedPaths(Assemble(data, s).value)
  {
    var normalized := NormalizeProducts(Get(data, "products").items).value;
    NewOrderDataHasNoNullDefaults(data, s.orderNumber, s.toDataUrl(TrackingLink(s.baseUrl, s.orderNumber)),
                                  normalized, ComputeTotals(normalized, data));
  }

  lemma NewOrderDataHasNoNullDefaults(data: JValue, orderNumber: string, qrCode: string,
                                      products: seq<NormProduct>, t: OrderTotals)
    ensures NoNullOnDefaultedPaths(NewOrderData(data, orderNumber, qrCode, products, t))
  {
    var r := NewOrderData(data, orderNumber, qrCode, products, t);
    assert r.tax != JNull && r.shipping != JNull && r.discount != JNull by {
      assert r.tax == AsJs(t.tax) && r.shipping == AsJs(t.shipping) && r.discount == AsJs(t.discount);
    }
    assert Truthy(r.shippingAddress.country);
    forall i | 0 <= i < |r.products| ensures ProductHasNoNullDefaults(r.products[i]) {
      assert r.products[i] == ProductInputOf(products[i]);
    }
  }

  /** `POST /api/orders`. `body` is the parsed request body, `None` when it is not JSON.
      A rejected payload gets the same 400 whatever the services would have generated. */
  function CreateOrder(body: Option<JValue>, s: Services): (r: Response)
    ensures body.None? ==> r.ServerError?
    ensures body.Some? ==> (r.BadRequest? <==> !AcceptsPayload(body.value))
    ensures r.BadRequest? ==> r == BadRequest(InvalidPayload) && r.Status() == 400
    ensures r.Created? ==> body.Some? && AcceptsPayload(body.value) && Assemble(body.value, s).Ok?
                           && Save(Assemble(body.value, s).value, Hook(s)) == Ok(r.order)
    ensures body.Some? && AcceptsPayload(body.value) ==>
              (r.Created? <==> Assemble(body.value, s).Ok? && Save(Assemble(body.value, s).value, Hook(s)).Ok?)
    ensures body.Some? && AcceptsPayload(body.value) && Assemble(body.value, s).Err? ==>
              r == ServerError(Assemble(body.value, s).message)
    ensures body.Some? && AcceptsPayload(body.value) && Assemble(body.value, s).Ok?
            && Save(Assemble(body.value, s).value, Hook(s)).Err? ==>
              r == ServerError(Save(Assemble(body.value, s).value, Hook(s)).message)
  {
    match body
    case None => ServerError("Unexpected end of JSON input")
    case Some(data) =>
      if !AcceptsPayload(data) then BadRequest(InvalidPayload)
      else
        var assembled := Assemble(data, s);
        if assembled.Err? then ServerError(assembled.message)
        else
          var saved := Save(assembled.value, Hook(s));
          if saved.Err? then ServerError(saved.message) else Created(saved.value)
  }

  // ---------------------------------------------------------------- what a created order looks like

  /** The stored form of one normalised product keeps the detector's verdict in
      both flags, and its price and quantity are the normalised numbers. */
  lemma StoredProduct(n: NormProduct)
    requires n.customization.Some? <==> n.isCustomized
    ensures CastProduct(ProductInputOf(n)).Ok? ==>
              var p := CastProduct(ProductInputOf(n)).value;
              && p.isCustomized == n.isCustomized
              && p.customization.isCustomized == n.isCustomized
              && n.price.Finite? && p.price == Some(n.price.value)
              && n.quantity.Finite? && p.quantity == Some(n.quantity.value)
              && n.totalPrice.Finite? && p.totalPrice == Some(n.totalPrice.value)
  {
    var input := ProductInputOf(n);
    if CastProduct(input).Ok? {
      var p := CastProduct(input).value;
      if n.customization.Some? {
        var c := CustomizationInputOf(n.customization.value);
        assert CastCustomization(c) == Ok(p.customization);
        assert c.isCustomized == JBool(true);
      }
      assert Optional(CastNumber(input.totalPrice), "totalPrice").Ok?;
    }
  }

  /** The steps behind a created order: the assembled object, the document cast
      from it (which passed validation), and the hook run on that document. */
  lemma CreatedSteps(data: JValue, s: Services) returns (products: seq<NormProduct>, input: OrderInput, d: Order)
    requires AcceptsPayload(data)
    requires CreateOrder(Some(data), s).Created?
    ensures NormalizeProducts(Get(data, "products").items) == Ok(products)
    ensures forall i | 0 <= i < |products| :: products[i].customization.Some? <==> products[i].isCustomized
    ensures forall i | 0 <= i < |products| :: products[i].totalPrice == Mul(products[i].price, products[i].quantity)
    ensures input == NewOrderData(data, s.orderNumber, s.toDataUrl(TrackingLink(s.baseUrl, s.orderNumber)),
                                  products, ComputeTotals(products, data))
    ensures CastOrder(input) == Ok(d) && ValidOrder(d)
    ensures CreateOrder(Some(data), s).order == PreSave(d, Hook(s))
  {
    products := NormalizeProducts(Get(data, "products").items).value;
    input := Assemble(data, s).value;
    d := CastOrder(input).value;
  }

  /** Every stored product comes from the payload's product at the same position:
      its flags are the detector's verdict, its quantity is `Number(quantity || 0)`
      and at least 1, and its price is `Number(price || 0)`, a number. */
  lemma CreatedProducts(data: JValue, s: Services, i: int)
    requires AcceptsPayload(data)
    requires 0 <= i < |Get(data, "products").items|
    ensures var r := CreateOrder(Some(data), s);
            var p := Get(data, "products").items[i];
            r.Created? ==>
              && |r.order.products| == |Get(data, "products").items|
              && r.order.products[i].isCustomized == HasCustomizationPayload(p)
              && r.order.products[i].customization.isCustomized == HasCustomizationPayload(p)
              && NumberOrZero(Get(p, "quantity")).Finite?
              && r.order.products[i].quantity == Some(NumberOrZero(Get(p, "quantity")).value)
              && NumberOrZero(Get(p, "quantity")).value >= 1
              && NumberOrZero(Get(p, "price")).Finite?
              && r.order.products[i].price == Some(NumberOrZero(Get(p, "price")).value)
  {
    var r := CreateOrder(Some(data), s);
    if r.Created? {
      var products, input, d := CreatedSteps(data, s);
      var ps := Get(data, "products").items;
      var n := products[i];
      assert n == NormalizeProduct(ps[i]);
      assert input.products[i] == ProductInputOf(n);
      assert CastProduct(input.products[i]) == Ok(d.products[i]);
      assert r.order.products == d.products;
      StoredProduct(n);
      assert ValidProduct(d.products[i]);
    }
  }

  /** A product whose quantity is missing, zero or not a number makes the whole
      request fail with a server error: the stored quantity must be at least 1. */
  lemma MissingQuantityFails(data: JValue, s: Services, i: int)
    requires AcceptsPayload(data)
    requires 0 <= i < |Get(data, "products").items|
    requires !Truthy(Get(Get(data, "products").items[i], "quantity"))
    ensures !CreateOrder(Some(data), s).Created?
  {
    CreatedProducts(data, s, i);
  }

  /** The document cast from `newOrderData` holds the given identifiers and status "pending". */
  lemma DocumentIdentity(data: JValue, orderNumber: string, qrCode: string,
                         products: seq<NormProduct>, t: OrderTotals, d: Order)
    requires CastOrder(NewOrderData(data, orderNumber, qrCode, products, t)) == Ok(d)
    ensures d.orderNumber == Some(orderNumber) && d.qrCode == Some(qrCode) && d.status == Pending
  {
    var input := NewOrderData(data, orderNumber, qrCode, products, t);
    assert input.orderNumber == JStr(orderNumber) && input.qrCode == JStr(qrCode);
    assert input.status == JStr("pending");
    assert d.status.Name() == "pending";
  }

  /** ... and the payment and country defaults. */
  lemma DocumentDefaults(data: JValue, orderNumber: string, qrCode: string,
                         products: seq<NormProduct>, t: OrderTotals, d: Order)
    requires CastOrder(NewOrderData(data, orderNumber, qrCode, products, t)) == Ok(d)
    ensures !Truthy(Get(data, "paymentMethod")) ==> d.paymentMethod == "cod"
    ensures !Truthy(Get(data, "paymentStatus")) ==> d.paymentStatus == "pending"
    ensures !Truthy(Get(Get(data, "shippingAddress"), "country")) ==> d.shippingAddress.country == "India"
  {
    var input := NewOrderData(data, orderNumber, qrCode, products, t);
    assert !Truthy(Get(data, "paymentMethod")) ==> input.paymentMethod == JStr("cod");
    assert !Truthy(Get(data, "paymentStatus")) ==> input.paymentStatus == JStr("pending");
    assert input.shippingAddress == AddressInputOf(data);
  }

  /** The identifiers and fixed fields of a created order: the generated number,
      the QR code of its tracking link, status "pending", and the defaults for
      payment method, payment status and country. */
  lemma CreatedIdentity(data: JValue, s: Services)
    requires AcceptsPayload(data)
    ensures var r := CreateOrder(Some(data), s);
            r.Created? ==>
              && r.order.orderNumber == Some(s.orderNumber)
              && r.order.qrCode == Some(s.toDataUrl(TrackingLink(s.baseUrl, s.orderNumber)))
              && r.order.status == Pending
              && (!Truthy(Get(data, "paymentMethod")) ==> r.order.paymentMethod == "cod")
              && (!Truthy(Get(data, "paymentStatus")) ==> r.order.paymentStatus == "pending")
              && (!Truthy(Get(Get(data, "shippingAddress"), "country")) ==> r.order.shippingAddress.country == "India")
  {
    var r := CreateOrder(Some(data), s);
    if r.Created? {
      var products, input, d := CreatedSteps(data, s);
      var qr := s.toDataUrl(TrackingLink(s.baseUrl, s.orderNumber));
      DocumentIdentity(data, s.orderNumber, qr, products, ComputeTotals(products, data), d);
      DocumentDefaults(data, s.orderNumber, qr, products, ComputeTotals(products, data), d);
      assert Present(d.orderNumber);
    }
  }

  /** An order is stored only for a payload that names the user: a missing or
      empty `userName` or `userEmail` becomes `""`, which `required` refuses. */
  lemma CreatedNeedsUser(data: JValue, s: Services)
    requires AcceptsPayload(data)
    ensures CreateOrder(Some(data), s).Created? ==>
              Truthy(Get(data, "userName")) && Truthy(Get(data, "userEmail"))
  {
    if CreateOrder(Some(data), s).Created? {
      var products, input, d := CreatedSteps(data, s);
      assert Present(d.userName) && Present(d.userEmail);
      assert !Truthy(Get(data, "userName")) ==> input.userName == JStr("");
      assert !Truthy(Get(data, "userEmail")) ==> input.userEmail == JStr("");
    }
  }

  /** The document cast from `newOrderData` holds the computed totals; casting
      succeeds only when none of them is `NaN`. */
  lemma DocumentTotals(data: JValue, orderNumber: string, qrCode: string,
                       products: seq<NormProduct>, t: OrderTotals, d: Order)
    requires CastOrder(NewOrderData(data, orderNumber, qrCode, products, t)) == Ok(d)
    ensures d.subtotal == Some(t.subtotal)
    ensures t.tax == Finite(d.tax) && t.shipping == Finite(d.shipping) && t.discount == Finite(d.discount)
    ensures t.total.Finite? && d.total == Some(t.total.value)
  {
    var input := NewOrderData(data, orderNumber, qrCode, products, t);
    assert input.subtotal == JNum(t.subtotal);
    assert input.tax == AsJs(t.tax) && input.shipping == AsJs(t.shipping);
    assert input.discount == AsJs(t.discount) && input.total == AsJs(t.total);
  }

  /** The stored totals: the subtotal is the sum of the line totals, tax, shipping
      and discount are the payload's (0 when missing), and the total is
      subtotal + tax + shipping - discount, whatever its sign. */
  lemma CreatedTotals(data: JValue, s: Services)
    requires AcceptsPayload(data)
    ensures var r := CreateOrder(Some(data), s);
            r.Created? ==>
              && NormalizeProducts(Get(data, "products").items).Ok?
              && r.order.subtotal == Some(Sum(LineAmounts(NormalizeProducts(Get(data, "products").items).value)))
              && r.order.total.Some?
              && r.order.total.value == r.order.subtotal.value + r.order.tax + r.order.shipping - r.order.discount
  {
    var r := CreateOrder(Some(data), s);
    if r.Created? {
      var products, input, d := CreatedSteps(data, s);
      var t := ComputeTotals(products, data);
      DocumentTotals(data, s.orderNumber, s.toDataUrl(TrackingLink(s.baseUrl, s.orderNumber)), products, t, d);
      assert t.total == Finite(t.subtotal + t.tax.value + t.shipping.value - t.discount.value);
      assert r.order.subtotal == d.subtotal && r.order.total == d.total;
      assert r.order.tax == d.tax && r.order.shipping == d.shipping && r.order.discount == d.discount;
    }
  }

  /** The tax, shipping and discount stored are the request's values read as
      numbers, with anything missing or falsy read as 0. */
  lemma CreatedCharges(data: JValue, s: Services)
    requires AcceptsPayload(data)
    ensures var r := CreateOrder(Some(data), s);
            r.Created? ==>
              && NumberOrZero(Get(data, "tax")) == Finite(r.order.tax)
              && NumberOrZero(Get(data, "shipping")) == Finite(r.order.shipping)
              && NumberOrZero(Get(data, "discount")) == Finite(r.order.discount)
  {
    var r := CreateOrder(Some(data), s);
    if r.Created? {
      var products, input, d := CreatedSteps(data, s);
      var t := ComputeTotals(products, data);
      DocumentTotals(data, s.orderNumber, s.toDataUrl(TrackingLink(s.baseUrl, s.orderNumber)), products, t, d);
      assert r.order.tax == d.tax && r.order.shipping == d.shipping && r.order.discount == d.discount;
    }
  }

  lemma {:induction false} SumMatchesProductsValue(xs: seq<int>, ps: seq<Product>)
    requires |xs| == |ps|
    requires forall i {:trigger ps[i]} | 0 <= i < |xs| :: xs[i] == LineValue(ps[i])
    ensures Sum(xs) == ProductsValue(ps)
    decreases |xs|
  {
    if xs != [] {
      SumMatchesProductsValue(xs[1..], ps[1..]);
    }
  }

  /** Each line total that entered the subtotal is the stored line's price times quantity. */
  lemma CreatedLine(data: JValue, s: Services, i: int)
    requires AcceptsPayload(data)
    requires 0 <= i < |Get(data, "products").items|
    ensures var r := CreateOrder(Some(data), s);
            r.Created? ==>
              && NormalizeProducts(Get(data, "products").items).Ok?
              && i < |r.order.products|
              && LineAmount(NormalizeProducts(Get(data, "products").items).value[i]) == LineValue(r.order.products[i])
  {
    var r := CreateOrder(Some(data), s);
    if r.Created? {
      var ps := Get(data, "products").items;
      CreatedProducts(data, s, i);
      CreatedTotals(data, s);
      var n := NormalizeProducts(ps).value[i];
      assert n == NormalizeProduct(ps[i]);
      assert n.totalPrice == Finite(n.price.value * n.quantity.value);
    }
  }

  /** The document cast from `newOrderData` stores one product per normalised product,
      each cast from the record built from it. */
  lemma DocumentProducts(data: JValue, orderNumber: string, qrCode: string,
                         products: seq<NormProduct>, t: OrderTotals, d: Order)
    requires CastOrder(NewOrderData(data, orderNumber, qrCode, products, t)) == Ok(d)
    ensures |d.products| == |products|
    ensures forall i | 0 <= i < |products| :: CastProduct(ProductInputOf(products[i])) == Ok(d.products[i])
  {
    var input := NewOrderData(data, orderNumber, qrCode, products, t);
    forall i | 0 <= i < |products| ensures CastProduct(ProductInputOf(products[i])) == Ok(d.products[i]) {
      assert input.products[i] == ProductInputOf(products[i]);
    }
  }

  /** The line totals of normalised products add up to the value of the products
      cast from them. */
  lemma StoredLineSum(products: seq<NormProduct>, stored: seq<Product>)
    requires forall i | 0 <= i < |products| :: products[i].customization.Some? <==> products[i].isCustomized
    requires forall i | 0 <= i < |products| :: products[i].totalPrice == Mul(products[i].price, products[i].quantity)
    requires |stored| == |products|
    requires forall i | 0 <= i < |products| :: CastProduct(ProductInputOf(products[i])) == Ok(stored[i])
    ensures Sum(LineAmounts(products)) == ProductsValue(stored)
  {
    var xs := LineAmounts(products);
    forall i | 0 <= i < |xs| ensures xs[i] == LineValue(stored[i]) {
      StoredProduct(products[i]);
    }
    SumMatchesProductsValue(xs, stored);
  }

  /** The line totals that entered the subtotal add up to the value of the stored lines. */
  lemma CreatedLineValue(data: JValue, s: Services)
    requires AcceptsPayload(data)
    ensures var r := CreateOrder(Some(data), s);
            r.Created? ==>
              && NormalizeProducts(Get(data, "products").items).Ok?
              && Sum(LineAmounts(NormalizeProducts(Get(data, "products").items).value)) == ProductsValue(r.order.products)
  {
    var r := CreateOrder(Some(data), s);
    if r.Created? {
      var products, input, d := CreatedSteps(data, s);
      var t := ComputeTotals(products, data);
      DocumentProducts(data, s.orderNumber, s.toDataUrl(TrackingLink(s.baseUrl, s.orderNumber)), products, t, d);
      StoredLineSum(products, d.products);
      assert r.order.products == d.products;
    }
  }

  /** A created order's stored subtotal is the sum of its stored prices times
      quantities, and its total adds tax and shipping and takes the discount off. */
  lemma CreatedSubtotalIsLineSum(data: JValue, s: Services)
    requires AcceptsPayload(data)
    ensures var r := CreateOrder(Some(data), s);
            r.Created? ==>
              && r.order.subtotal.Some? && r.order.subtotal.value == ProductsValue(r.order.products)
              && r.order.total.Some?
              && r.order.total.value == ProductsValue(r.order.products) + r.order.tax + r.order.shipping - r.order.discount
  {
    CreatedTotals(data, s);
    CreatedLineValue(data, s);
  }
}

=== FILE: detector.dfy ===
/** The server's test for whether a raw product carries customisation worth storing
    (`hasCustomizationPayload` in the order-creation handler). */
module Detector {
  import opened Json
  import opened Coerce

  /** A `textData` value counts when it is neither `undefined` nor `null` and
      `String(v).trim()` is not empty. */
  predicate CountsAsText(v: JValue) {
    !IsNullish(v) && Trim(JsString(v)) != ""
  }

  /** `Object.values(text).some(CountsAsText)`. `Object.values` lists an object's
      property values, an array's elements, a string's characters, and nothing
      for a number or boolean. */
  predicate AnyTextValue(text: JValue) {
    match text
    case JObj(m) => exists k | k in m :: CountsAsText(m[k])
    case JArr(items) => exists i | 0 <= i < |items| :: CountsAsText(items[i])
    case JStr(s) => exists i | 0 <= i < |s| :: CountsAsText(JStr([s[i]]))
    case _ => false
  }

  /** The content test applied to a truthy `customization` value `c`. */
  predicate CustomizationHasContent(c: JValue) {
    || AnyTextValue(Or(Get(c, "textData"), JObj(map[])))
    || IsNonEmptyArray(Get(c, "photoUrls"))
    || Truthy(Get(c, "font"))
    || Truthy(Get(c, "color"))
    || Truthy(Get(c, "style"))
    || Truthy(Get(c, "previewImage"))
    || Truthy(Get(c, "printFile"))
  }

  /** `hasCustomizationPayload(p)` */
  predicate HasCustomizationPayload(p: JValue) {
    if !Truthy(p) then false
    else if Truthy(Get(p, "isCustomized")) then true
    else if Truthy(Get(p, "customization")) then CustomizationHasContent(Get(p, "customization"))
    else false
  }

  /** The verdict in full: a missing product is never customised; a truthy flag
      decides on its own; otherwise only the content of a truthy `customization`
      matters, and with none the answer is no. */
  lemma DetectorCases(p: JValue)
    ensures !Truthy(p) ==> !HasCustomizationPayload(p)
    ensures Truthy(Get(p, "isCustomized")) ==> HasCustomizationPayload(p)
    ensures !Truthy(Get(p, "isCustomized")) ==>
              (HasCustomizationPayload(p) <==>
                 Truthy(Get(p, "customization")) && CustomizationHasContent(Get(p, "customization")))
  {
  }

  /** An empty `customization` object has no content. */
  lemma EmptyCustomizationHasNoContent()
    ensures !CustomizationHasContent(JObj(map[]))
  {
    assert Or(Get(JObj(map[]), "textData"), JObj(map[])) == JObj(map[]);
  }

  /** A string counts as text exactly when it holds a character other than whitespace. */
  lemma StringCountsIff(s: string)
    ensures CountsAsText(JStr(s)) <==> !AllWhitespace(s)
  {
    TrimBlankIff(s);
  }

  /** Text whose first character is visible survives `trim`. */
  lemma VisibleFirstChar(s: string)
    requires s != [] && !IsWhitespace(s[0])
    ensures Trim(s) != ""
  {
    TrimBlankIff(s);
  }

  /** Numbers, booleans and objects always print as visible text. */
  lemma NonStringScalarsCount(v: JValue)
    requires v.JNum? || v.JBool? || v.JNaN? || v.JObj?
    ensures CountsAsText(v)
  {
    match v
    case JNum(n) =>
      var digits := NatToString(if n < 0 then -n else n);
      var s := IntToString(n);
      assert s[0] == '-' || s[0] == digits[0];
      VisibleFirstChar(s);
    case JBool(b) =>
      var s := if b then "true" else "false";
      assert s[0] == 't' || s[0] == 'f';
      VisibleFirstChar(s);
    case JNaN =>
      VisibleFirstChar("NaN");
    case JObj(_) =>
      VisibleFirstChar("[object Object]");
  }

  /** A one-character string counts exactly when the character is not whitespace. */
  lemma SingleCharCounts(c: char)
    ensures CountsAsText(JStr([c])) <==> !IsWhitespace(c)
  {
    StringCountsIff([c]);
    assert [c][0] == c;
  }

  lemma StringTextDataVisible(s: string)
    requires AnyTextValue(JStr(s))
    ensures !AllWhitespace(s)
  {
    var i :| 0 <= i < |s| && CountsAsText(JStr([s[i]]));
    SingleCharCounts(s[i]);
  }

  lemma VisibleStringTextData(s: string)
    requires !AllWhitespace(s)
    ensures AnyTextValue(JStr(s))
  {
    var i :| 0 <= i < |s| && !IsWhitespace(s[i]);
    SingleCharCounts(s[i]);
  }

  /** A `textData` given as one string counts exactly when it has a visible character. */
  lemma StringTextDataIff(s: string)
    ensures AnyTextValue(JStr(s)) <==> !AllWhitespace(s)
  {
    if AnyTextValue(JStr(s)) {
      StringTextDataVisible(s);
    }
    if !AllWhitespace(s) {
      VisibleStringTextData(s);
    }
  }

  /** Whitespace never turns customisation on: a product whose flag is falsy,
      whose text fields are all whitespace-only strings or missing, and whose
      other customisation fields are empty or falsy, is not customised. */
  lemma WhitespaceTextIsNotCustomization(p: JValue)
    requires p.JObj? && !Truthy(Get(p, "isCustomized"))
    requires
      var c := Get(p, "customization");
      && (c.JObj? ==> Get(c, "textData").JObj?
                      && forall k | k in Get(c, "textData").fields ::
                           var v := Get(c, "textData").fields[k];
                           IsNullish(v) || (v.JStr? && AllWhitespace(v.s)))
      && !IsNonEmptyArray(Get(c, "photoUrls"))
      && !Truthy(Get(c, "font")) && !Truthy(Get(c, "color")) && !Truthy(Get(c, "style"))
      && !Truthy(Get(c, "previewImage")) && !Truthy(Get(c, "printFile"))
      && (Truthy(c) ==> c.JObj?)
    ensures !HasCustomizationPayload(p)
  {
    var c := Get(p, "customization");
    if Truthy(c) {
      var t := Get(c, "textData");
      forall k | k in t.fields
        ensures !CountsAsText(t.fields[k])
      {
        if t.fields[k].JStr? {
          StringCountsIff(t.fields[k].s);
        }
      }
    }
  }

  lemma TextWitness(m: map<string, JValue>, k: string)
    requires k in m && CountsAsText(m[k])
    ensures AnyTextValue(JObj(m))
  {
  }

  lemma ContentFromText(c: JValue)
    requires Get(c, "textData").JObj? && AnyTextValue(Get(c, "textData"))
    ensures CustomizationHasContent(c)
  {
  }

  lemma FromContent(p: JValue)
    requires p.JObj? && Truthy(Get(p, "customization"))
    requires CustomizationHasContent(Get(p, "customization"))
    ensures HasCustomizationPayload(p)
  {
  }

  /** Entering visible text into one `textData` field of an object product makes
      it customised, whatever else the product holds. */
  lemma VisibleTextMakesCustomized(
    product: map<string, JValue>, custom: map<string, JValue>, text: map<string, JValue>,
    key: string, s: string)
    requires !AllWhitespace(s)
    ensures HasCustomizationPayload(
              JObj(product["customization" := JObj(custom["textData" := JObj(text[key := JStr(s)])])]))
  {
    var m := text[key := JStr(s)];
    var c := JObj(custom["textData" := JObj(m)]);
    var p := JObj(product["customization" := c]);
    assert AnyTextValue(JObj(m)) by {
      StringCountsIff(s);
      TextWitness(m, key);
    }
    assert CustomizationHasContent(c) by {
      ContentFromText(c);
    }
    assert Get(p, "customization") == c;
    FromContent(p);
  }
}

=== FILE: draft.dfy ===
/** The order draft the browser keeps between pages, and the client-side line
    arithmetic shared by the order form and the checkout page. */
module Draft {
  import opened Base
  import opened Json
  import opened Coerce
  import opened Totals

  datatype UserInfo = UserInfo(name: string, email: string, phone: string)

  /** The address the location form collects. The form starts every field as text,
      but the postal lookup can write whatever the lookup service returned. */
  datatype ShippingAddress = ShippingAddress(
    userName: JValue,
    phone: JValue,
    alternatePhone: JValue,
    postalCode: JValue,
    locality: JValue,
    street: JValue,
    city: JValue,
    district: JValue,
    state: JValue,
    country: JValue,
    landmark: JValue,
    addressType: JValue)

  /** The draft: who orders, the products as stored by the browser, and the
      shipping address once the location form has been completed. */
  datatype OrderDraft = OrderDraft(user: UserInfo, products: seq<JValue>, shippingAddress: Option<ShippingAddress>)

  /** `Number(price || 0) * Number(quantity || 0)` */
  function LineNumber(price: JValue, quantity: JValue): (r: Number)
    ensures !Truthy(price) || !Truthy(quantity) ==> r.Finite? ==> r.value == 0
    ensures r.Finite? <==> NumberOrZero(price).Finite? && NumberOrZero(quantity).Finite?
  {
    Mul(NumberOrZero(price), NumberOrZero(quantity))
  }

  /** `lines.reduce((sum, x) => sum + x, acc)`: a `NaN` line makes the sum `NaN`. */
  function SumLines(acc: Number, lines: seq<Number>): Number
    decreases |lines|
  {
    if lines == [] then acc else SumLines(Add(acc, lines[0]), lines[1..])
  }

  /** The sum is a number exactly when the start and every line are numbers, and
      it is then the start plus the sum of the lines. */
  lemma {:induction false} SumLinesFinite(a: int, lines: seq<Number>, xs: seq<int>)
    requires |xs| == |lines|
    requires forall i {:trigger lines[i]} | 0 <= i < |lines| :: lines[i] == Finite(xs[i])
    ensures SumLines(Finite(a), lines) == Finite(a + Sum(xs))
    decreases |lines|
  {
    if lines != [] {
      SumLinesFinite(a + xs[0], lines[1..], xs[1..]);
    }
  }

  /** One `NaN` line makes the whole sum `NaN`, wherever it sits. */
  lemma {:induction false} SumLinesNaN(acc: Number, lines: seq<Number>, k: int)
    requires 0 <= k < |lines| && lines[k].NaN?
    ensures SumLines(acc, lines).NaN?
    decreases |lines|
  {
    if k == 0 {
      NaNAbsorbs(Add(acc, lines[0]), lines[1..]);
    } else {
      SumLinesNaN(Add(acc, lines[0]), lines[1..], k - 1);
    }
  }

  lemma {:induction false} NaNAbsorbs(acc: Number, lines: seq<Number>)
    requires acc.NaN?
    ensures SumLines(acc, lines).NaN?
    decreases |lines|
  {
    if lines != [] {
      NaNAbsorbs(Add(acc, lines[0]), lines[1..]);
    }
  }
}

=== FILE: json.dfy ===
/** JavaScript values as they reach the order handlers: parsed JSON bodies,
    objects built in code, and the `undefined`/`NaN` values that JSON cannot carry. */
module Json {

  datatype JValue =
    | JUndef
    | JNull
    | JBool(b: bool)
    | JNum(n: int)      // money and quantities are whole numbers in this model
    | JNaN
    | JStr(s: string)
    | JArr(items: seq<JValue>)
    | JObj(fields: map<string, JValue>)

  /** JavaScript truthiness: what `!!v`, `if (v)` and `v || d` test. */
  predicate Truthy(v: JValue) {
    match v
    case JUndef => false
    case JNull => false
    case JBool(b) => b
    case JNum(n) => n != 0
    case JNaN => false
    case JStr(s) => s != ""
    case JArr(_) => true
    case JObj(_) => true
  }

  /** `a || b`: the first operand when it is truthy, the second otherwise. */
  function Or(a: JValue, b: JValue): JValue {
    if Truthy(a) then a else b
  }

  /** `v?.key`: the property of an object, `undefined` when it is missing or `v` is not an object. */
  function Get(v: JValue, key: string): JValue {
    if v.JObj? && key in v.fields then v.fields[key] else JUndef
  }

  /** `v === undefined || v === null` */
  predicate IsNullish(v: JValue) {
    v.JUndef? || v.JNull?
  }

  /** `Array.isArray(v) && v.length > 0` */
  predicate IsNonEmptyArray(v: JValue) {
    v.JArr? && |v.items| > 0
  }
}

=== FILE: location.dfy ===
/** The shipping-address page: the address starts from the draft's user, a
    six-character postal code is looked up and fills in the place names, and
    "continue" stores the address in the draft once name, phone and street are
    filled in. */
module Location {
  import opened Base
  import opened Json
  import opened Draft

  /** The form's first state: the user's name and phone, India, a home address. */
  function InitialAddress(user: UserInfo): (r: ShippingAddress)
    ensures r.userName == JStr(user.name) && r.phone == JStr(user.phone)
    ensures r.country == JStr("India") && r.addressType == JStr("home")
    ensures r.street == JStr("") && r.postalCode == JStr("") && r.city == JStr("")
  {
    ShippingAddress(JStr(user.name), JStr(user.phone), JStr(""), JStr(""), JStr(""), JStr(""),
                    JStr(""), JStr(""), JStr(""), JStr("India"), JStr(""), JStr("home"))
  }

  /** When the draft's user changes, the form takes the new name and phone and keeps
      everything else the visitor typed. */
  function SyncUser(a: ShippingAddress, user: UserInfo): (r: ShippingAddress)
    ensures r.userName == JStr(user.name) && r.phone == JStr(user.phone)
    ensures r.(userName := a.userName, phone := a.phone) == a
  {
    a.(userName := JStr(user.name), phone := JStr(user.phone))
  }

  // ---------------------------------------------------------------- postal-code lookup

  /** What the lookup request produced: the request or its JSON parse failed, or
      the parsed reply. */
  datatype Lookup = FetchFailed | Reply(body: JValue)

  datatype PincodeResult = PincodeResult(address: ShippingAddress, error: string, queried: bool)

  const LookupRejected := "Invalid Pincode or not found"
  const LookupFailed := "Failed to fetch location"

  /** `v?.[0]`: the first element of an array or the first character of a string,
      the property "0" of an object, and `undefined` otherwise. */
  function ElementZero(v: JValue): (r: JValue)
    ensures v.JArr? && |v.items| > 0 ==> r == v.items[0]
    ensures IsNullish(v) ==> r == JUndef
  {
    match v
    case JArr(items) => if |items| > 0 then items[0] else JUndef
    case JStr(s) => if |s| > 0 then JStr([s[0]]) else JUndef
    case JObj(_) => Get(v, "0")
    case _ => JUndef
  }

  /** `Array.isArray(data) && data[0]?.Status === "Success"` */
  predicate LookupSucceeded(data: JValue) {
    Get(ElementZero(data), "Status") == JStr("Success") && data.JArr?
  }

  /** The place names a successful reply fills in, from its first post office. */
  function Autofill(a: ShippingAddress, data: JValue): (r: ShippingAddress)
    ensures Truthy(r.country)
    ensures r.(city := a.city, district := a.district, state := a.state, country := a.country) == a
  {
    var po := ElementZero(Get(ElementZero(data), "PostOffice"));
    a.(city := Or(Or(Get(po, "Name"), Get(po, "District")), JStr("")),
       district := Or(Get(po, "District"), JStr("")),
       state := Or(Get(po, "State"), JStr("")),
       country := Or(Get(po, "Country"), JStr("India")))
  }

  /** Typing into the postal-code field: the code is stored and the error cleared;
      a code of exactly six characters is looked up, and the reply either fills in
      the place names or sets an error. */
  function PincodeChange(a: ShippingAddress, value: string, lookup: Lookup): (r: PincodeResult)
    ensures r.queried <==> |value| == 6
    ensures r.address.postalCode == JStr(value)
    ensures !r.queried ==> r.error == "" && r.address == a.(postalCode := JStr(value))
    ensures r.queried && lookup.FetchFailed? ==> r.error == LookupFailed && r.address == a.(postalCode := JStr(value))
    ensures r.queried && lookup.Reply? && !LookupSucceeded(lookup.body) ==>
              r.error == LookupRejected && r.address == a.(postalCode := JStr(value))
    ensures r.queried && lookup.Reply? && LookupSucceeded(lookup.body) ==>
              r.error == "" && r.address == Autofill(a.(postalCode := JStr(value)), lookup.body)
  {
    var typed := a.(postalCode := JStr(value));
    if |value| != 6 then PincodeResult(typed, "", false)
    else match lookup
      case FetchFailed => PincodeResult(typed, LookupFailed, true)
      case Reply(data) =>
        if LookupSucceeded(data) then PincodeResult(Autofill(typed, data), "", true)
        else PincodeResult(typed, LookupRejected, true)
  }

  /** A lookup only ever writes the postal code and the four place names. */
  lemma PincodeChangeFrame(a: ShippingAddress, value: string, lookup: Lookup)
    ensures var b := PincodeChange(a, value, lookup).address;
            && b.userName == a.userName && b.phone == a.phone && b.alternatePhone == a.alternatePhone
            && b.locality == a.locality && b.street == a.street && b.landmark == a.landmark
            && b.addressType == a.addressType
  {
  }

  /** The country never becomes empty: it starts as India and a lookup falls back
      to India. */
  lemma CountryStaysFilled(a: ShippingAddress, value: string, lookup: Lookup)
    requires Truthy(a.country)
    ensures Truthy(PincodeChange(a, value, lookup).address.country)
  {
  }

  /** A reply whose first post office has no name uses its district as the city. */
  lemma CityFallsBackToDistrict(a: ShippingAddress, value: string, po: JValue)
    requires |value| == 6
    requires !Truthy(Get(po, "Name")) && Truthy(Get(po, "District"))
    ensures var data := JArr([JObj(map["Status" := JStr("Success"), "PostOffice" := JArr([po])])]);
            var r := PincodeChange(a, value, Reply(data));
            r.error == "" && r.address.city == Get(po, "District") && r.address.district == Get(po, "District")
  {
    var data := JArr([JObj(map["Status" := JStr("Success"), "PostOffice" := JArr([po])])]);
    assert Get(ElementZero(data), "Status") == JStr("Success");
    assert ElementZero(Get(ElementZero(data), "PostOffice")) == po;
  }

  // ---------------------------------------------------------------- continue

  datatype ContinueOutcome = Refused(message: string) | Proceed(draft: OrderDraft)

  const MissingFields := "Please fill all required fields"

  /** "Continue": refused unless name, phone and street are filled in; otherwise the
      address is stored in the draft and nothing else of the draft changes. */
  function Continue(d: OrderDraft, a: ShippingAddress): (r: ContinueOutcome)
    ensures r.Refused? <==> !Truthy(a.userName) || !Truthy(a.phone) || !Truthy(a.street)
    ensures r.Refused? ==> r.message == MissingFields
    ensures r.Proceed? ==> r.draft.shippingAddress == Some(a)
    ensures r.Proceed? ==> r.draft.user == d.user && r.draft.products == d.products
  {
    if !Truthy(a.userName) || !Truthy(a.phone) || !Truthy(a.street) then Refused(MissingFields)
    else Proceed(d.(shippingAddress := Some(a)))
  }

  /** The form's first state cannot be continued: its street is empty. */
  lemma InitialAddressRefused(d: OrderDraft)
    ensures Continue(d, InitialAddress(d.user)).Refused?
  {
  }
}

=== FILE: normalize.dfy ===
/** The per-product reshaping done by the order-creation handler: every raw
    product becomes a canonical record with defaulted fields, a computed line
    total, and a customisation sub-record only when the detector finds one. */
module Normalize {
  import opened Base
  import opened Json
  import opened Coerce
  import opened Detector

  datatype TextFields = TextFields(name: JValue, className: JValue, schoolName: JValue, section: JValue)

  /** The customisation sub-record; its `isCustomized` is always `true` and is
      written out by `EncodeCustomization`. */
  datatype NormCustomization = NormCustomization(
    textData: TextFields,
    photoUrls: seq<JValue>,
    font: JValue,
    color: JValue,
    style: JValue,
    isCartoonStyle: bool,
    previewImage: JValue,
    printFile: JValue)

  datatype NormProduct = NormProduct(
    productId: JValue,
    name: JValue,
    price: Number,
    quantity: Number,
    totalPrice: Number,
    imageUrl: JValue,
    isCustomized: bool,
    customization: Option<NormCustomization>)   // None: the key is not written at all

  /** `x || ""`: the value a text field falls back to. */
  function OrEmpty(v: JValue): (r: JValue)
    ensures Truthy(v) ==> r == v
    ensures !Truthy(v) ==> r == JStr("")
  {
    Or(v, JStr(""))
  }

  /** A canonical text field is either the empty string or a truthy value. */
  predicate Canonical(v: JValue) {
    v == JStr("") || Truthy(v)
  }

  /** `Array.isArray(v) ? v : (v ? [v] : [])` */
  function PhotoList(v: JValue): (r: seq<JValue>)
    ensures v.JArr? ==> r == v.items
    ensures !v.JArr? && Truthy(v) ==> r == [v]
    ensures !Truthy(v) ==> r == []
  {
    if v.JArr? then v.items else if Truthy(v) then [v] else []
  }

  /** The customisation sub-record built from a product `p` whose payload was detected. */
  function NormalizeCustomization(p: JValue): (r: NormCustomization)
    ensures Canonical(r.textData.name) && Canonical(r.textData.className)
    ensures Canonical(r.textData.schoolName) && Canonical(r.textData.section)
    ensures Canonical(r.font) && Canonical(r.color) && Canonical(r.style)
    ensures Canonical(r.previewImage) && Canonical(r.printFile)
    ensures var t := Get(Get(p, "customization"), "textData");
            r.textData == TextFields(OrEmpty(Get(t, "name")), OrEmpty(Get(t, "className")),
                                     OrEmpty(Get(t, "schoolName")), OrEmpty(Get(t, "section")))
    ensures var c := Get(p, "customization");
            && r.font == OrEmpty(Get(c, "font")) && r.color == OrEmpty(Get(c, "color"))
            && r.style == OrEmpty(Get(c, "style")) && r.printFile == OrEmpty(Get(c, "printFile"))
    ensures r.photoUrls == PhotoList(Get(Get(p, "customization"), "photoUrls"))
    ensures r.isCartoonStyle == Truthy(Get(Get(p, "customization"), "isCartoonStyle"))
    ensures !Truthy(Get(Get(p, "customization"), "previewImage")) && !Truthy(Get(p, "previewImage")) ==>
              r.previewImage == JStr("")
    ensures Truthy(Get(Get(p, "customization"), "previewImage")) ==>
              r.previewImage == Get(Get(p, "customization"), "previewImage")
    ensures !Truthy(Get(Get(p, "customization"), "previewImage")) && Truthy(Get(p, "previewImage")) ==>
              r.previewImage == Get(p, "previewImage")
  {
    var c := Get(p, "customization");
    var t := Get(c, "textData");
    NormCustomization(
      TextFields(OrEmpty(Get(t, "name")), OrEmpty(Get(t, "className")),
                 OrEmpty(Get(t, "schoolName")), OrEmpty(Get(t, "section"))),
      PhotoList(Get(c, "photoUrls")),
      OrEmpty(Get(c, "font")),
      OrEmpty(Get(c, "color")),
      OrEmpty(Get(c, "style")),
      Truthy(Get(c, "isCartoonStyle")),
      OrEmpty(Or(Get(c, "previewImage"), Get(p, "previewImage"))),
      OrEmpty(Get(c, "printFile")))
  }

  /** One element of `data.products.map(...)`. Reading `p.price` on `null` or
      `undefined` throws, so the element must be some other value. */
  function NormalizeProduct(p: JValue): (r: NormProduct)
    requires !IsNullish(p)
    ensures r.price == NumberOrZero(Get(p, "price"))
    ensures r.quantity == NumberOrZero(Get(p, "quantity"))
    ensures r.totalPrice == Mul(r.price, r.quantity)
    ensures r.isCustomized == HasCustomizationPayload(p)
    ensures r.customization.Some? <==> r.isCustomized
    ensures Canonical(r.name) && Canonical(r.imageUrl)
    ensures r.productId == JNull || Truthy(r.productId)
    ensures r.name == OrEmpty(Get(p, "name")) && r.imageUrl == OrEmpty(Get(p, "imageUrl"))
    ensures r.productId == Or(Get(p, "productId"), JNull)
    ensures r.customization.Some? ==> r.customization.value == NormalizeCustomization(p)
  {
    var price := NumberOrZero(Get(p, "price"));
    var qty := NumberOrZero(Get(p, "quantity"));
    var detected := HasCustomizationPayload(p);
    NormProduct(
      Or(Get(p, "productId"), JNull),
      OrEmpty(Get(p, "name")),
      price,
      qty,
      Mul(price, qty),
      OrEmpty(Get(p, "imageUrl")),
      detected,
      if detected then Some(NormalizeCustomization(p)) else None)
  }

  /** The error thrown when a product read is `null` or `undefined`; the wording is
      the one for `null`, and stands for both. */
  const NullProductError := "Cannot read properties of null (reading 'price')"

  /** `data.products.map(...)`: the same products in the same order, or the
      error thrown by the first `null`/`undefined` element. */
  function NormalizeProducts(ps: seq<JValue>): (r: Result<seq<NormProduct>>)
    ensures r.Ok? <==> forall i | 0 <= i < |ps| :: !IsNullish(ps[i])
    ensures r.Ok? ==> |r.value| == |ps|
    ensures r.Ok? ==> forall i | 0 <= i < |ps| :: r.value[i] == NormalizeProduct(ps[i])
  {
    if exists i | 0 <= i < |ps| :: IsNullish(ps[i]) then
      Err(NullProductError)
    else
      Ok(seq(|ps|, i requires 0 <= i < |ps| => NormalizeProduct(ps[i])))
  }

  // ---------------------------------------------------------------- the record as a JavaScript object

  function EncodeText(t: TextFields): (r: JValue)
    ensures Get(r, "name") == t.name && Get(r, "className") == t.className
    ensures Get(r, "schoolName") == t.schoolName && Get(r, "section") == t.section
  {
    JObj(map["name" := t.name, "className" := t.className,
             "schoolName" := t.schoolName, "section" := t.section])
  }

  function EncodeCustomization(c: NormCustomization): (r: JValue)
    ensures Truthy(r) && Get(r, "isCustomized") == JBool(true)
    ensures Get(r, "textData") == EncodeText(c.textData) && Get(r, "photoUrls") == JArr(c.photoUrls)
    ensures Get(r, "font") == c.font && Get(r, "color") == c.color && Get(r, "style") == c.style
    ensures Get(r, "isCartoonStyle") == JBool(c.isCartoonStyle)
    ensures Get(r, "previewImage") == c.previewImage && Get(r, "printFile") == c.printFile
  {
    JObj(map["isCustomized" := JBool(true),
             "textData" := EncodeText(c.textData),
             "photoUrls" := JArr(c.photoUrls),
             "font" := c.font,
             "color" := c.color,
             "style" := c.style,
             "isCartoonStyle" := JBool(c.isCartoonStyle),
             "previewImage" := c.previewImage,
             "printFile" := c.printFile])
  }

  /** The object literal the handler returns for a product; the spread
      `...(detected && {customization})` writes the key only when present. */
  function EncodeProduct(n: NormProduct): (r: JValue)
    ensures r.JObj? && "previewImage" !in r.fields
    ensures Get(r, "productId") == n.productId && Get(r, "name") == n.name
    ensures Get(r, "price") == AsJs(n.price) && Get(r, "quantity") == AsJs(n.quantity)
    ensures Get(r, "totalPrice") == AsJs(n.totalPrice) && Get(r, "imageUrl") == n.imageUrl
    ensures Get(r, "isCustomized") == JBool(n.isCustomized)
    ensures n.customization.Some? ==> Get(r, "customization") == EncodeCustomization(n.customization.value)
    ensures n.customization.None? ==> Get(r, "customization") == JUndef
  {
    ProductObject(n.productId, n.name, AsJs(n.price), AsJs(n.quantity), AsJs(n.totalPrice), n.imageUrl,
                  JBool(n.isCustomized),
                  if n.customization.Some? then Some(EncodeCustomization(n.customization.value)) else None)
  }

  /** The product object literal with its values computed; `custom` is written
      under `customization` only when present. */
  function ProductObject(productId: JValue, name: JValue, price: JValue, quantity: JValue, totalPrice: JValue,
                         imageUrl: JValue, isCustomized: JValue, custom: Option<JValue>): (r: JValue)
    ensures r.JObj? && "previewImage" !in r.fields
    ensures Get(r, "productId") == productId && Get(r, "name") == name
    ensures Get(r, "price") == price && Get(r, "quantity") == quantity
    ensures Get(r, "totalPrice") == totalPrice && Get(r, "imageUrl") == imageUrl
    ensures Get(r, "isCustomized") == isCustomized
    ensures custom.Some? ==> Get(r, "customization") == custom.value
    ensures custom.None? ==> Get(r, "customization") == JUndef
  {
    var base := map["productId" := productId,
                    "name" := name,
                    "price" := price,
                    "quantity" := quantity,
                    "totalPrice" := totalPrice,
                    "imageUrl" := imageUrl,
                    "isCustomized" := isCustomized];
    if custom.Some? then JObj(base["customization" := custom.value]) else JObj(base)
  }

  // ---------------------------------------------------------------- properties

  /** The detector agrees with the flag the normaliser wrote: feeding a
      normalised product back to the detector returns its own `isCustomized`. */
  lemma DetectorFixpoint(p: JValue)
    requires !IsNullish(p)
    ensures HasCustomizationPayload(EncodeProduct(NormalizeProduct(p))) == NormalizeProduct(p).isCustomized
  {
    DetectorCases(EncodeProduct(NormalizeProduct(p)));
  }

  lemma TextFixpoint(t: TextFields)
    requires Canonical(t.name) && Canonical(t.className)
    requires Canonical(t.schoolName) && Canonical(t.section)
    ensures var e := EncodeText(t);
            TextFields(OrEmpty(Get(e, "name")), OrEmpty(Get(e, "className")),
                       OrEmpty(Get(e, "schoolName")), OrEmpty(Get(e, "section"))) == t
  {
  }

  lemma CustomizationFixpoint(p: JValue, e: JValue)
    requires e.JObj? && "customization" in e.fields && "previewImage" !in e.fields
    requires e.fields["customization"] == EncodeCustomization(NormalizeCustomization(p))
    ensures NormalizeCustomization(e) == NormalizeCustomization(p)
  {
    var c := NormalizeCustomization(p);
    var ec := EncodeCustomization(c);
    var r := NormalizeCustomization(e);
    assert Get(e, "customization") == ec;
    assert r.textData == c.textData by {
      assert Get(ec, "textData") == EncodeText(c.textData);
      TextFixpoint(c.textData);
    }
    assert r.photoUrls == c.photoUrls by {
      assert Get(ec, "photoUrls") == JArr(c.photoUrls);
    }
    assert r.font == c.font && r.color == c.color && r.style == c.style by {
      assert Get(ec, "font") == c.font;
      assert Get(ec, "color") == c.color;
      assert Get(ec, "style") == c.style;
    }
    assert r.isCartoonStyle == c.isCartoonStyle by {
      assert Get(ec, "isCartoonStyle") == JBool(c.isCartoonStyle);
    }
    assert r.previewImage == c.previewImage by {
      assert Get(ec, "previewImage") == c.previewImage;
      assert Get(e, "previewImage") == JUndef;
    }
    assert r.printFile == c.printFile by {
      assert Get(ec, "printFile") == c.printFile;
    }
  }

  /** Normalisation is idempotent: a normalised product, written out and
      normalised again, comes back unchanged, provided its price and quantity are
      numbers (a `NaN` price is re-read as 0). */
  lemma {:induction false} NormalizeIdempotent(p: JValue)
    requires !IsNullish(p)
    requires NormalizeProduct(p).price.Finite? && NormalizeProduct(p).quantity.Finite?
    ensures NormalizeProduct(EncodeProduct(NormalizeProduct(p))) == NormalizeProduct(p)
  {
    var n := NormalizeProduct(p);
    var e := EncodeProduct(n);
    assert Get(e, "productId") == n.productId;
    assert Get(e, "name") == n.name;
    assert Get(e, "price") == JNum(n.price.value);
    assert Get(e, "quantity") == JNum(n.quantity.value);
    assert Get(e, "imageUrl") == n.imageUrl;
    DetectorFixpoint(p);
    if n.isCustomized {
      CustomizationFixpoint(p, e);
    }
  }
}

=== FILE: ordermodel.dfy ===
/** The Order document: its schema (paths, types, defaults, `required`, `min`
    and the status enum) and the identifier hook that runs when it is saved. */
module OrderModel {
  import opened Base
  import opened Json
  import opened Schema

  // ---------------------------------------------------------------- status enum

  datatype OrderStatus = Pending | Confirmed | InProduction | Packed | Shipped | Delivered | Cancelled {
    function Name(): string {
      match this
      case Pending => "pending"
      case Confirmed => "confirmed"
      case InProduction => "in_production"
      case Packed => "packed"
      case Shipped => "shipped"
      case Delivered => "delivered"
      case Cancelled => "cancelled"
    }
  }

  const StatusNames: set<string> :=
    {"pending", "confirmed", "in_production", "packed", "shipped", "delivered", "cancelled"}

  /** The enum validator: a stored status must be one of the seven names. */
  function ParseStatus(s: string): (r: Option<OrderStatus>)
    ensures r.Some? <==> s in StatusNames
    ensures r.Some? ==> r.value.Name() == s
  {
    if s == "pending" then Some(Pending)
    else if s == "confirmed" then Some(Confirmed)
    else if s == "in_production" then Some(InProduction)
    else if s == "packed" then Some(Packed)
    else if s == "shipped" then Some(Shipped)
    else if s == "delivered" then Some(Delivered)
    else if s == "cancelled" then Some(Cancelled)
    else None
  }

  /** Every status has its own name, and the enum has exactly seven values. */
  lemma StatusNamesRoundTrip(st: OrderStatus)
    ensures ParseStatus(st.Name()) == Some(st)
    ensures st.Name() in StatusNames
    ensures |StatusNames| == 7
  {
  }

  // ---------------------------------------------------------------- what is handed to Order.create

  datatype TextDataInput = TextDataInput(name: JValue, className: JValue, schoolName: JValue, section: JValue)

  datatype CustomizationInput = CustomizationInput(
    isCustomized: JValue,
    textData: TextDataInput,
    photoUrls: JValue,
    font: JValue,
    color: JValue,
    style: JValue,
    isCartoonStyle: JValue,
    previewImage: JValue,
    printFile: JValue)

  /** `{}` as a customisation. */
  const EmptyCustomizationInput: CustomizationInput :=
    CustomizationInput(JUndef, TextDataInput(JUndef, JUndef, JUndef, JUndef),
                       JUndef, JUndef, JUndef, JUndef, JUndef, JUndef, JUndef)

  datatype ProductInput = ProductInput(
    productId: JValue,
    name: JValue,
    price: JValue,
    quantity: JValue,
    totalPrice: JValue,
    imageUrl: JValue,
    isCustomized: JValue,
    customization: Option<CustomizationInput>)   // None: the key is absent

  datatype AddressInput = AddressInput(
    firstName: JValue, lastName: JValue, street: JValue, city: JValue,
    state: JValue, postalCode: JValue, country: JValue, phone: JValue)

  datatype OrderInput = OrderInput(
    orderNumber: JValue,
    qrCode: JValue,
    userId: JValue,
    userName: JValue,
    userEmail: JValue,
    phone: JValue,
    products: seq<ProductInput>,
    subtotal: JValue,
    tax: JValue,
    shipping: JValue,
    discount: JValue,
    total: JValue,
    shippingAddress: AddressInput,
    paymentMethod: JValue,
    paymentStatus: JValue,
    status: JValue,
    printFileUrl: JValue,
    driveFolder: JValue,
    previewImage: JValue)

  /** No path that declares a `default:` holds an explicit `null`. The casts here
      read `null` like `undefined` and give it the default, where mongoose applies a
      default only to `undefined` and stores `null`; on input satisfying this the
      two agree. */
  predicate NoNullOnDefaultedPaths(o: OrderInput) {
    o.tax != JNull && o.shipping != JNull && o.discount != JNull
    && o.paymentMethod != JNull && o.paymentStatus != JNull && o.status != JNull
    && o.shippingAddress.country != JNull
    && forall i | 0 <= i < |o.products| :: ProductHasNoNullDefaults(o.products[i])
  }

  predicate ProductHasNoNullDefaults(p: ProductInput) {
    p.isCustomized != JNull
    && (p.customization.Some? ==>
          p.customization.value.isCustomized != JNull && p.customization.value.isCartoonStyle != JNull
          && p.customization.value.photoUrls != JNull)
  }

  // ---------------------------------------------------------------- the stored document

  datatype TextData = TextData(name: Option<string>, className: Option<string>,
                               schoolName: Option<string>, section: Option<string>)

  datatype Customization = Customization(
    isCustomized: bool,
    textData: TextData,
    photoUrls: seq<Option<string>>,   // None: a `null` or `undefined` element
    font: Option<string>,
    color: Option<string>,
    style: Option<string>,
    isCartoonStyle: bool,
    previewImage: Option<string>,
    printFile: Option<string>)

  /** The sub-document stored for `{}`: both flags false, no text, no photos. */
  const EmptyCustomization: Customization :=
    Customization(false, TextData(None, None, None, None), [], None, None, None, false, None, None)

  datatype Product = Product(
    productId: JValue,          // an ObjectId reference; its casting is not modelled
    name: Option<string>,
    price: Option<int>,
    quantity: Option<int>,
    totalPrice: Option<int>,
    imageUrl: Option<string>,
    isCustomized: bool,
    customization: Customization)

  datatype Address = Address(
    firstName: Option<string>, lastName: Option<string>, street: Option<string>,
    city: Option<string>, state: Option<string>, postalCode: Option<string>,
    country: string, phone: Option<string>)

  datatype Order = Order(
    orderNumber: Option<string>,
    qrCode: Option<string>,
    userId: JValue,             // an ObjectId reference; its casting is not modelled
    userName: Option<string>,
    userEmail: Option<string>,
    phone: Option<string>,
    products: seq<Product>,
    subtotal: Option<int>,
    tax: int,
    shipping: int,
    discount: int,
    total: Option<int>,
    shippingAddress: Address,
    paymentMethod: string,
    paymentStatus: string,
    status: OrderStatus,
    printFileUrl: Option<string>,
    driveFolder: Option<string>,
    previewImage: Option<string>)

  // ---------------------------------------------------------------- casting and defaults

  function CastTextData(t: TextDataInput): Result<TextData> {
    var name :- Optional(CastString(t.name), "textData.name");
    var className :- Optional(CastString(t.className), "textData.className");
    var schoolName :- Optional(CastString(t.schoolName), "textData.schoolName");
    var section :- Optional(CastString(t.section), "textData.section");
    Ok(TextData(name, className, schoolName, section))
  }

  /** A customisation sub-document: both flags default to false, photos to `[]`. */
  function CastCustomization(c: CustomizationInput): (r: Result<Customization>)
    ensures r.Ok? && IsNullish(c.isCustomized) ==> !r.value.isCustomized
    ensures r.Ok? && IsNullish(c.isCartoonStyle) ==> !r.value.isCartoonStyle
    ensures r.Ok? && c.isCustomized.JBool? ==> r.value.isCustomized == c.isCustomized.b
    ensures r.Ok? && IsNullish(c.photoUrls) ==> r.value.photoUrls == []
  {
    var isCustomized :- WithDefault(CastBool(c.isCustomized), false, "customization.isCustomized");
    var textData :- CastTextData(c.textData);
    var photoUrls :- WithDefault(CastStringArray(c.photoUrls), [], "customization.photoUrls");
    var font :- Optional(CastString(c.font), "customization.font");
    var color :- Optional(CastString(c.color), "customization.color");
    var style :- Optional(CastString(c.style), "customization.style");
    var isCartoonStyle :- WithDefault(CastBool(c.isCartoonStyle), false, "customization.isCartoonStyle");
    var previewImage :- Optional(CastString(c.previewImage), "customization.previewImage");
    var printFile :- Optional(CastString(c.printFile), "customization.printFile");
    Ok(Customization(isCustomized, textData, photoUrls, font, color, style,
                     isCartoonStyle, previewImage, printFile))
  }

  /** `default: () => ({})` stores an empty sub-document whose flags are false. */
  lemma EmptyCustomizationDefault()
    ensures CastCustomization(EmptyCustomizationInput) == Ok(EmptyCustomization)
    ensures !EmptyCustomization.isCustomized && !EmptyCustomization.isCartoonStyle
  {
  }

  /** A product sub-document. A product without a `customization` key gets the
      empty default sub-document. */
  function CastProduct(p: ProductInput): (r: Result<Product>)
    ensures r.Ok? && p.customization.None? ==> r.value.customization == EmptyCustomization
    ensures r.Ok? && p.customization.Some? ==> CastCustomization(p.customization.value) == Ok(r.value.customization)
    ensures r.Ok? ==> (r.value.quantity.None? <==> IsNullish(p.quantity) || p.quantity == JStr(""))
    ensures r.Ok? && p.quantity.JNum? ==> r.value.quantity == Some(p.quantity.n)
    ensures r.Ok? && p.price.JNum? ==> r.value.price == Some(p.price.n)
    ensures r.Ok? && p.name.JStr? ==> r.value.name == Some(p.name.s)
    ensures r.Ok? && IsNullish(p.isCustomized) ==> !r.value.isCustomized
    ensures r.Ok? && p.isCustomized.JBool? ==> r.value.isCustomized == p.isCustomized.b
    ensures p.price.JNaN? || p.quantity.JNaN? ==> r.Err?
  {
    var name :- Optional(CastString(p.name), "name");
    var price :- Optional(CastNumber(p.price), "price");
    var quantity :- Optional(CastNumber(p.quantity), "quantity");
    var totalPrice :- Optional(CastNumber(p.totalPrice), "totalPrice");
    var imageUrl :- Optional(CastString(p.imageUrl), "imageUrl");
    var isCustomized :- WithDefault(CastBool(p.isCustomized), false, "isCustomized");
    var customization :- CastCustomization(p.customization.GetOr(EmptyCustomizationInput));
    assert p.customization.None? ==> customization == EmptyCustomization by {
      EmptyCustomizationDefault();
    }
    Ok(Product(p.productId, name, price, quantity, totalPrice, imageUrl, isCustomized, customization))
  }

  function CastProducts(ps: seq<ProductInput>): (r: Result<seq<Product>>)
    ensures r.Ok? <==> forall i | 0 <= i < |ps| :: CastProduct(ps[i]).Ok?
    ensures r.Ok? ==> |r.value| == |ps|
                      && forall i | 0 <= i < |ps| :: CastProduct(ps[i]) == Ok(r.value[i])
    decreases |ps|
  {
    if ps == [] then Ok([])
    else
      var head := CastProduct(ps[0]);
      var tail := CastProducts(ps[1..]);
      if head.Ok? && tail.Ok? then Ok([head.value] + tail.value)
      else
        assert !tail.Ok? ==> exists i | 1 <= i < |ps| :: !CastProduct(ps[i]).Ok? by {
          if !tail.Ok? {
            var j :| 0 <= j < |ps[1..]| && !CastProduct(ps[1..][j]).Ok?;
            assert ps[1..][j] == ps[j + 1];
          }
        }
        if head.Err? then Err(head.message) else Err(tail.message)
  }

  /** The shipping address: every field optional, the country defaulting to "India". */
  function CastAddress(a: AddressInput): (r: Result<Address>)
    ensures r.Ok? && IsNullish(a.country) ==> r.value.country == "India"
    ensures r.Ok? && a.country.JStr? ==> r.value.country == a.country.s
  {
    var firstName :- Optional(CastString(a.firstName), "shippingAddress.firstName");
    var lastName :- Optional(CastString(a.lastName), "shippingAddress.lastName");
    var street :- Optional(CastString(a.street), "shippingAddress.street");
    var city :- Optional(CastString(a.city), "shippingAddress.city");
    var state :- Optional(CastString(a.state), "shippingAddress.state");
    var postalCode :- Optional(CastString(a.postalCode), "shippingAddress.postalCode");
    var country :- WithDefault(CastString(a.country), "India", "shippingAddress.country");
    var phone :- Optional(CastString(a.phone), "shippingAddress.phone");
    Ok(Address(firstName, lastName, street, city, state, postalCode, country, phone))
  }

  /** The status path: "pending" when missing, otherwise one of the seven names. */
  function CastStatus(v: JValue): (r: Result<OrderStatus>)
    ensures IsNullish(v) ==> r == Ok(Pending)
    ensures v.JStr? ==> (r.Ok? <==> v.s in StatusNames)
    ensures v.JStr? && r.Ok? ==> r.value.Name() == v.s
  {
    var name :- WithDefault(CastString(v), "pending", "status");
    var st := ParseStatus(name);
    if st.Some? then Ok(st.value) else Err("`" + name + "` is not a valid enum value for path `status`")
  }

  /** Building the document from the object handed to `Order.create`: casting
      and defaults, before validation. */
  function CastOrder(o: OrderInput): (r: Result<Order>)
    ensures r.Ok? ==> |r.value.products| == |o.products|
                      && forall i | 0 <= i < |o.products| :: CastProduct(o.products[i]) == Ok(r.value.products[i])
    ensures r.Ok? && IsNullish(o.tax) ==> r.value.tax == 0
    ensures r.Ok? && IsNullish(o.shipping) ==> r.value.shipping == 0
    ensures r.Ok? && IsNullish(o.discount) ==> r.value.discount == 0
    ensures r.Ok? && IsNullish(o.paymentMethod) ==> r.value.paymentMethod == "cod"
    ensures r.Ok? && IsNullish(o.paymentStatus) ==> r.value.paymentStatus == "pending"
    ensures r.Ok? && IsNullish(o.status) ==> r.value.status == Pending
    ensures o.status.JStr? && o.status.s !in StatusNames ==> r.Err?
    ensures r.Ok? && o.status.JStr? ==> r.value.status.Name() == o.status.s
    ensures r.Ok? ==> CastAddress(o.shippingAddress) == Ok(r.value.shippingAddress)
    ensures r.Ok? && o.orderNumber.JStr? ==> r.value.orderNumber == Some(o.orderNumber.s)
    ensures r.Ok? && o.qrCode.JStr? ==> r.value.qrCode == Some(o.qrCode.s)
    ensures r.Ok? && o.subtotal.JNum? ==> r.value.subtotal == Some(o.subtotal.n)
    ensures r.Ok? && o.total.JNum? ==> r.value.total == Some(o.total.n)
    ensures r.Ok? && o.tax.JNum? ==> r.value.tax == o.tax.n
    ensures r.Ok? && o.shipping.JNum? ==> r.value.shipping == o.shipping.n
    ensures r.Ok? && o.discount.JNum? ==> r.value.discount == o.discount.n
    ensures r.Ok? && o.paymentMethod.JStr? ==> r.value.paymentMethod == o.paymentMethod.s
    ensures r.Ok? && o.paymentStatus.JStr? ==> r.value.paymentStatus == o.paymentStatus.s
    ensures r.Ok? && o.userName.JStr? ==> r.value.userName == Some(o.userName.s)
    ensures r.Ok? && o.userEmail.JStr? ==> r.value.userEmail == Some(o.userEmail.s)
  {
    var orderNumber :- Optional(CastString(o.orderNumber), "orderNumber");
    var qrCode :- Optional(CastString(o.qrCode), "qrCode");
    var userName :- Optional(CastString(o.userName), "userName");
    var userEmail :- Optional(CastString(o.userEmail), "userEmail");
    var phone :- Optional(CastString(o.phone), "phone");
    var products :- CastProducts(o.products);
    var subtotal :- Optional(CastNumber(o.subtotal), "subtotal");
    var tax :- WithDefault(CastNumber(o.tax), 0, "tax");
    var shipping :- WithDefault(CastNumber(o.shipping), 0, "shipping");
    var discount :- WithDefault(CastNumber(o.discount), 0, "discount");
    var total :- Optional(CastNumber(o.total), "total");
    var address :- CastAddress(o.shippingAddress);
    var paymentMethod :- WithDefault(CastString(o.paymentMethod), "cod", "paymentMethod");
    var paymentStatus :- WithDefault(CastString(o.paymentStatus), "pending", "paymentStatus");
    var status :- CastStatus(o.status);
    var printFileUrl :- Optional(CastString(o.printFileUrl), "printFileUrl");
    var driveFolder :- Optional(CastString(o.driveFolder), "driveFolder");
    var previewImage :- Optional(CastString(o.previewImage), "previewImage");
    Ok(Order(orderNumber, qrCode, o.userId, userName, userEmail, phone, products,
             subtotal, tax, shipping, discount, total, address, paymentMethod,
             paymentStatus, status, printFileUrl, driveFolder, previewImage))
  }

  /** The value of the stored lines: price times quantity, summed over the products. */
  function LineValue(p: Product): int {
    if p.price.Some? && p.quantity.Some? then p.price.value * p.quantity.value else 0
  }

  function ProductsValue(ps: seq<Product>): int {
    if ps == [] then 0 else LineValue(ps[0]) + ProductsValue(ps[1..])
  }

  // ---------------------------------------------------------------- validation

  /** A product needs a name and a price, and a quantity of at least 1. */
  predicate ValidProduct(p: Product) {
    Present(p.name) && p.price.Some? && p.quantity.Some? && p.quantity.value >= 1
  }

  /** An order needs its number, the user's name and email, both totals, and valid products. */
  predicate ValidOrder(o: Order) {
    && Present(o.orderNumber)
    && Present(o.userName)
    && Present(o.userEmail)
    && o.subtotal.Some?
    && o.total.Some?
    && forall i | 0 <= i < |o.products| :: ValidProduct(o.products[i])
  }

  /** Casting followed by the validators. */
  function Validate(o: OrderInput): (r: Result<Order>)
    ensures r.Ok? <==> CastOrder(o).Ok? && ValidOrder(CastOrder(o).value)
    ensures r.Ok? ==> r.value == CastOrder(o).value
  {
    var d :- CastOrder(o);
    if ValidOrder(d) then Ok(d) else Err("Order validation failed")
  }

  /** A product whose quantity is below 1 sinks the whole order, whatever else it holds. */
  lemma LowQuantityRejected(o: OrderInput, i: int)
    requires 0 <= i < |o.products|
    requires o.products[i].quantity.JNum? && o.products[i].quantity.n < 1
    ensures Validate(o).Err?
  {
    if CastOrder(o).Ok? {
      var d := CastOrder(o).value;
      assert CastProduct(o.products[i]) == Ok(d.products[i]);
      assert !ValidProduct(d.products[i]);
    }
  }

  // ---------------------------------------------------------------- the save hook

  /** The collaborators the hook calls: a fresh order number, the QR encoder, and the site address. */
  datatype HookServices = HookServices(newOrderId: string, toDataUrl: string -> string, baseUrl: string)

  /** The link a QR code encodes. */
  function TrackingLink(baseUrl: string, orderNumber: string): string {
    baseUrl + "/order/track/" + orderNumber
  }

  /** `pre("save")`: an order number is generated only when there is none, and a QR
      code, encoding the tracking link of the (possibly new) number, only when there
      is none. Nothing else changes. */
  function PreSave(o: Order, h: HookServices): (r: Order)
    ensures Present(o.orderNumber) ==> r.orderNumber == o.orderNumber
    ensures !Present(o.orderNumber) ==> r.orderNumber == Some(h.newOrderId)
    ensures Present(o.qrCode) ==> r.qrCode == o.qrCode
    ensures !Present(o.qrCode) ==> r.qrCode == Some(h.toDataUrl(TrackingLink(h.baseUrl, r.orderNumber.value)))
    ensures r == o.(orderNumber := r.orderNumber, qrCode := r.qrCode)
  {
    var number := if Present(o.orderNumber) then o.orderNumber.value else h.newOrderId;
    var qr := if Present(o.qrCode) then o.qrCode.value else h.toDataUrl(TrackingLink(h.baseUrl, number));
    o.(orderNumber := Some(number), qrCode := Some(qr))
  }

  /** Identifiers are assigned once: after one run of the hook with non-empty
      generated values, a second run, with any collaborators, changes nothing. */
  lemma PreSaveAssignsOnce(o: Order, h1: HookServices, h2: HookServices)
    requires h1.newOrderId != ""
    requires forall link :: h1.toDataUrl(link) != ""
    ensures PreSave(PreSave(o, h1), h2) == PreSave(o, h1)
  {
    var once := PreSave(o, h1);
    assert Present(once.orderNumber);
    assert Present(once.qrCode);
  }

  /** `doc.save()`: the built-in validation runs before the schema's own save hook. */
  function Save(o: OrderInput, h: HookServices): (r: Result<Order>)
    ensures r.Ok? <==> Validate(o).Ok?
    ensures r.Ok? ==> r.value == PreSave(Validate(o).value, h)
  {
    var d :- Validate(o);
    Ok(PreSave(d, h))
  }

  /** Because validation requires an order number first, a successful save always
      keeps the number it was given: the hook's generating branch is never reached. */
  lemma SaveKeepsGivenOrderNumber(o: OrderInput, h: HookServices)
    requires Save(o, h).Ok?
    ensures Save(o, h).value.orderNumber == CastOrder(o).value.orderNumber
  {
  }
}

=== FILE: payment.dfy ===
/** The PaymentTransaction document: one gateway payment attempt for an order. */
module Payment {
  import opened Base
  import opened Json
  import opened Schema

  datatype PaymentMethod = Card | Upi | NetBanking | Wallet | CodAdvance {
    function Name(): string {
      match this
      case Card => "card"
      case Upi => "upi"
      case NetBanking => "netbanking"
      case Wallet => "wallet"
      case CodAdvance => "cod_advance"
    }
  }

  const PaymentMethodNames: set<string> := {"card", "upi", "netbanking", "wallet", "cod_advance"}

  function ParsePaymentMethod(s: string): (r: Option<PaymentMethod>)
    ensures r.Some? <==> s in PaymentMethodNames
    ensures r.Some? ==> r.value.Name() == s
  {
    if s == "card" then Some(Card)
    else if s == "upi" then Some(Upi)
    else if s == "netbanking" then Some(NetBanking)
    else if s == "wallet" then Some(Wallet)
    else if s == "cod_advance" then Some(CodAdvance)
    else None
  }

  datatype TxStatus = TxPending | Completed | Failed | Refunded {
    function Name(): string {
      match this
      case TxPending => "pending"
      case Completed => "completed"
      case Failed => "failed"
      case Refunded => "refunded"
    }
  }

  const TxStatusNames: set<string> := {"pending", "completed", "failed", "refunded"}

  function ParseTxStatus(s: string): (r: Option<TxStatus>)
    ensures r.Some? <==> s in TxStatusNames
    ensures r.Some? ==> r.value.Name() == s
  {
    if s == "pending" then Some(TxPending)
    else if s == "completed" then Some(Completed)
    else if s == "failed" then Some(Failed)
    else if s == "refunded" then Some(Refunded)
    else None
  }

  /** Both enums name their values one-to-one. */
  lemma EnumNamesRoundTrip(m: PaymentMethod, st: TxStatus)
    ensures ParsePaymentMethod(m.Name()) == Some(m)
    ensures ParseTxStatus(st.Name()) == Some(st)
    ensures |PaymentMethodNames| == 5 && |TxStatusNames| == 4
  {
  }

  /** A stored transaction. The order and user references are kept as their
      string form; `gatewayResponse` is a free-form object. */
  datatype Transaction = Transaction(
    orderId: string,
    userId: Option<string>,
    amount: int,
    paymentMethod: PaymentMethod,
    transactionId: Option<string>,
    status: TxStatus,
    gatewayResponse: Option<JValue>)

  /** The object handed to `PaymentTransaction.create`, one value per path. */
  datatype TransactionInput = TransactionInput(
    orderId: JValue,
    userId: JValue,
    amount: JValue,
    paymentMethod: JValue,
    transactionId: JValue,
    status: JValue,
    gatewayResponse: JValue)

  function Required<T>(c: Cast<T>, path: string): Result<T> {
    match c
    case Missing => Err("Path `" + path + "` is required.")
    case Value(x) => Ok(x)
    case CastFailure => Err("Cast failed for path " + path)
  }

  /** Casting and validating a new transaction: the order reference, the amount and
      a known payment method are required; the status defaults to "pending" and must
      be one of the four names; the gateway's transaction id and response are optional. */
  function CreateTransaction(t: TransactionInput): (r: Result<Transaction>)
    ensures IsNullish(t.orderId) || t.orderId == JStr("") ==> r.Err?
    ensures IsNullish(t.amount) || t.amount == JStr("") ==> r.Err?
    ensures IsNullish(t.paymentMethod) ==> r.Err?
    ensures t.paymentMethod.JStr? && t.paymentMethod.s !in PaymentMethodNames ==> r.Err?
    ensures t.status.JStr? && t.status.s !in TxStatusNames ==> r.Err?
    ensures r.Ok? && t.paymentMethod.JStr? ==> r.value.paymentMethod.Name() == t.paymentMethod.s
    ensures r.Ok? && t.amount.JNum? ==> r.value.amount == t.amount.n
    ensures r.Ok? && IsNullish(t.status) ==> r.value.status == TxPending
    ensures r.Ok? && t.status.JStr? ==> r.value.status.Name() == t.status.s
    ensures r.Ok? && IsNullish(t.transactionId) ==> r.value.transactionId == None
    ensures r.Ok? && IsNullish(t.gatewayResponse) ==> r.value.gatewayResponse == None
    ensures r.Ok? && !IsNullish(t.gatewayResponse) ==> r.value.gatewayResponse == Some(t.gatewayResponse)
  {
    var orderId :- Required(CastString(t.orderId), "orderId");
    if orderId == "" then Err("Path `orderId` is required.") else
    var userId :- Optional(CastString(t.userId), "userId");
    var amount :- Required(CastNumber(t.amount), "amount");
    var methodName :- Required(CastString(t.paymentMethod), "paymentMethod");
    var pm := ParsePaymentMethod(methodName);
    if pm.None? then Err("`" + methodName + "` is not a valid enum value for path `paymentMethod`.") else
    var transactionId :- Optional(CastString(t.transactionId), "transactionId");
    var statusName :- WithDefault(CastString(t.status), "pending", "status");
    var status := ParseTxStatus(statusName);
    if status.None? then Err("`" + statusName + "` is not a valid enum value for path `status`.") else
    var gatewayResponse := if IsNullish(t.gatewayResponse) then None else Some(t.gatewayResponse);
    Ok(Transaction(orderId, userId, amount, pm.value, transactionId, status.value, gatewayResponse))
  }

  /** `transactionId` and `gatewayResponse` are optional: leaving them out never
      makes an acceptable transaction unacceptable, and every other path keeps its value. */
  lemma OptionalFieldsMayBeOmitted(t: TransactionInput)
    requires CreateTransaction(t).Ok?
    ensures var r := CreateTransaction(t.(transactionId := JUndef, gatewayResponse := JUndef));
            && r.Ok?
            && r.value == CreateTransaction(t).value.(transactionId := None, gatewayResponse := None)
  {
    var t2 := t.(transactionId := JUndef, gatewayResponse := JUndef);
    assert Optional(CastString(t2.transactionId), "transactionId") == Ok(None);
    assert Optional(CastString(t.transactionId), "transactionId").Ok?;
  }
}

=== FILE: schema.dfy ===
/** How a mongoose schema turns the JavaScript value given for one path into the
    stored value: casting to the path's type, the default for a missing value,
    and the `required` test. */
module Schema {
  import opened Base
  import opened Json
  import opened Coerce

  /** The outcome of casting one value: nothing given, a value, or a cast error. */
  datatype Cast<+T> = Missing | Value(value: T) | CastFailure

  /** A document passed where text is expected: an object whose `_id` is non-empty text. */
  predicate HasTextId(v: JValue) {
    v.JObj? && Get(v, "_id").JStr? && Get(v, "_id").s != ""
  }

  /** Casting to `String`: numbers and booleans print, an object with a text `_id`
      gives that id, and arrays and other objects are refused. */
  function CastString(v: JValue): (r: Cast<string>)
    ensures r.Missing? <==> IsNullish(v)
    ensures r.CastFailure? <==> v.JArr? || (v.JObj? && !HasTextId(v))
    ensures v.JStr? ==> r == Value(v.s)
    ensures v.JNum? ==> r == Value(IntToString(v.n))
    ensures HasTextId(v) ==> r == Value(Get(v, "_id").s)
  {
    match v
    case JUndef => Missing
    case JNull => Missing
    case JBool(b) => Value(if b then "true" else "false")
    case JNum(n) => Value(IntToString(n))
    case JNaN => Value("NaN")
    case JStr(s) => Value(s)
    case JArr(_) => CastFailure
    case JObj(_) => if HasTextId(v) then Value(Get(v, "_id").s) else CastFailure
  }

  /** Casting to `Number`: the empty string counts as missing, text and booleans
      convert with `Number`, and anything that is or becomes `NaN` is refused. */
  function CastNumber(v: JValue): (r: Cast<int>)
    ensures r.Missing? <==> IsNullish(v) || v == JStr("")
    ensures v.JNum? ==> r == Value(v.n)
    ensures v.JNaN? || v.JArr? || v.JObj? ==> r.CastFailure?
    ensures v.JStr? && v.s != "" ==>
              (r.Value? <==> ParseNumberString(v.s).Finite?)
              && (r.Value? ==> r.value == ParseNumberString(v.s).value)
  {
    match v
    case JUndef => Missing
    case JNull => Missing
    case JBool(b) => Value(if b then 1 else 0)
    case JNum(n) => Value(n)
    case JNaN => CastFailure
    case JStr(s) =>
      if s == "" then Missing
      else
        var x := ParseNumberString(s);
        if x.Finite? then Value(x.value) else CastFailure
    case JArr(_) => CastFailure
    case JObj(_) => CastFailure
  }

  /** Casting to `Boolean`: `true, "true", 1, "1", "yes"` are true, `false,
      "false", 0, "0", "no"` are false, anything else is refused. */
  function CastBool(v: JValue): (r: Cast<bool>)
    ensures r.Missing? <==> IsNullish(v)
    ensures v.JBool? ==> r == Value(v.b)
  {
    if IsNullish(v) then Missing
    else if v == JBool(true) || v == JNum(1) || v == JStr("true") || v == JStr("1") || v == JStr("yes") then Value(true)
    else if v == JBool(false) || v == JNum(0) || v == JStr("false") || v == JStr("0") || v == JStr("no") then Value(false)
    else CastFailure
  }

  /** Casting every element of an array to `String`; a `null` or `undefined`
      element is kept as an empty slot (`None`). */
  function CastStrings(items: seq<JValue>): (r: Cast<seq<Option<string>>>)
    ensures !r.Missing?
    ensures r.Value? <==> forall i | 0 <= i < |items| :: !CastString(items[i]).CastFailure?
    ensures r.Value? ==> |r.value| == |items|
    ensures r.Value? ==> forall i | 0 <= i < |items| :: IsNullish(items[i]) ==> r.value[i] == None
    ensures r.Value? ==> forall i | 0 <= i < |items| ::
              CastString(items[i]).Value? ==> r.value[i] == Some(CastString(items[i]).value)
    decreases |items|
  {
    if items == [] then Value([])
    else
      var head := CastString(items[0]);
      var tail := CastStrings(items[1..]);
      if !head.CastFailure? && tail.Value? then
        var x := if head.Value? then Some(head.value) else None;
        var r := [x] + tail.value;
        assert forall i | 1 <= i < |items| :: items[i] == items[1..][i - 1] && r[i] == tail.value[i - 1];
        Value(r)
      else
        assert !tail.Value? ==> exists i | 1 <= i < |items| :: CastString(items[i]).CastFailure? by {
          if !tail.Value? {
            var j :| 0 <= j < |items[1..]| && CastString(items[1..][j]).CastFailure?;
            assert items[1..][j] == items[j + 1];
          }
        }
        CastFailure
  }

  /** Casting to `[String]`: a missing array is empty, an array is cast element by
      element, and a single value is wrapped into a one-element array. */
  function CastStringArray(v: JValue): (r: Cast<seq<Option<string>>>)
    ensures !r.Missing?
    ensures IsNullish(v) ==> r == Value([])
    ensures v.JArr? ==> r == CastStrings(v.items)
    ensures !IsNullish(v) && !v.JArr? ==>
              (r.Value? <==> CastString(v).Value?) && (r.Value? ==> r.value == [Some(CastString(v).value)])
  {
    if IsNullish(v) then Value([])
    else if v.JArr? then CastStrings(v.items)
    else
      var s := CastString(v);
      if s.Value? then Value([Some(s.value)]) else CastFailure
  }

  /** An optional path: a missing value is stored as absent. */
  function Optional<T>(c: Cast<T>, path: string): (r: Result<Option<T>>)
    ensures r.Ok? <==> !c.CastFailure?
    ensures c.Missing? ==> r == Ok(None)
    ensures c.Value? ==> r == Ok(Some(c.value))
  {
    match c
    case Missing => Ok(None)
    case Value(x) => Ok(Some(x))
    case CastFailure => Err("Cast failed for path " + path)
  }

  /** A path with a default: a missing value is stored as the default. */
  function WithDefault<T>(c: Cast<T>, default: T, path: string): (r: Result<T>)
    ensures r.Ok? <==> !c.CastFailure?
    ensures c.Missing? ==> r == Ok(default)
    ensures c.Value? ==> r == Ok(c.value)
  {
    match c
    case Missing => Ok(default)
    case Value(x) => Ok(x)
    case CastFailure => Err("Cast failed for path " + path)
  }

  /** `required: true` on a `String` path: present and not empty. */
  predicate Present(s: Option<string>) {
    s.Some? && s.value != ""
  }
}

=== FILE: totals.dfy ===
/** The totals block of the order-creation handler. */
module Totals {
  import opened Json
  import opened Coerce
  import opened Normalize

  /** The sum of a list of whole numbers. */
  function Sum(xs: seq<int>): int
    decreases |xs|
  {
    if xs == [] then 0 else xs[0] + Sum(xs[1..])
  }

  /** What one product adds to the subtotal: `Number(pr.totalPrice) || 0`, so a
      `NaN` line total adds nothing. */
  function LineAmount(n: NormProduct): (r: int)
    ensures n.totalPrice.Finite? ==> r == n.totalPrice.value
    ensures n.totalPrice.NaN? ==> r == 0
  {
    OrZero(n.totalPrice)
  }

  function LineAmounts(ps: seq<NormProduct>): (r: seq<int>)
    ensures |r| == |ps|
    ensures forall i | 0 <= i < |ps| :: r[i] == LineAmount(ps[i])
    decreases |ps|
  {
    if ps == [] then [] else [LineAmount(ps[0])] + LineAmounts(ps[1..])
  }

  /** `ps.reduce((acc, pr) => acc + (Number(pr.totalPrice) || 0), acc)` */
  function Reduce(acc: int, ps: seq<NormProduct>): int
    decreases |ps|
  {
    if ps == [] then acc else Reduce(acc + LineAmount(ps[0]), ps[1..])
  }

  /** The left-to-right accumulation adds up every line amount. */
  lemma {:induction false} ReduceIsSum(acc: int, ps: seq<NormProduct>)
    ensures Reduce(acc, ps) == acc + Sum(LineAmounts(ps))
    decreases |ps|
  {
    if ps != [] {
      ReduceIsSum(acc + LineAmount(ps[0]), ps[1..]);
      assert LineAmounts(ps)[1..] == LineAmounts(ps[1..]);
    }
  }

  /** The order subtotal: the sum of the line totals, a `NaN` line counting 0. */
  function Subtotal(ps: seq<NormProduct>): (r: int)
    ensures r == Sum(LineAmounts(ps))
  {
    ReduceIsSum(0, ps);
    Reduce(0, ps)
  }

  /** Line amounts never shrink the subtotal when every product has a
      non-negative price and quantity. */
  lemma {:induction false} SubtotalNonNegative(ps: seq<NormProduct>)
    requires forall i | 0 <= i < |ps| ::
               ps[i].totalPrice == Mul(ps[i].price, ps[i].quantity)
               && (ps[i].price.Finite? ==> ps[i].price.value >= 0)
               && (ps[i].quantity.Finite? ==> ps[i].quantity.value >= 0)
    ensures Subtotal(ps) >= 0
    decreases |ps|
  {
    if ps != [] {
      SubtotalNonNegative(ps[1..]);
      assert LineAmounts(ps)[1..] == LineAmounts(ps[1..]);
      var n := ps[0];
      if n.totalPrice.Finite? {
        assert n.totalPrice.value == n.price.value * n.quantity.value;
      }
    }
  }

  datatype OrderTotals = OrderTotals(subtotal: int, tax: Number, shipping: Number, discount: Number, total: Number)

  /** The totals of an order: the subtotal of the normalised products, the
      payload's tax, shipping and discount read with `Number(x || 0)`, and
      `total = subtotal + tax + shipping - discount` with no clamping at zero. */
  function ComputeTotals(ps: seq<NormProduct>, data: JValue): (t: OrderTotals)
    ensures t.subtotal == Sum(LineAmounts(ps))
    ensures t.tax == NumberOrZero(Get(data, "tax"))
    ensures t.shipping == NumberOrZero(Get(data, "shipping"))
    ensures t.discount == NumberOrZero(Get(data, "discount"))
    ensures t.total == Sub(Add(Add(Finite(t.subtotal), t.tax), t.shipping), t.discount)
    ensures t.tax.Finite? && t.shipping.Finite? && t.discount.Finite? ==>
              t.total == Finite(t.subtotal + t.tax.value + t.shipping.value - t.discount.value)
    ensures t.total.NaN? <==> t.tax.NaN? || t.shipping.NaN? || t.discount.NaN?
  {
    var subtotal := Subtotal(ps);
    var tax := NumberOrZero(Get(data, "tax"));
    var shipping := NumberOrZero(Get(data, "shipping"));
    var discount := NumberOrZero(Get(data, "discount"));
    OrderTotals(subtotal, tax, shipping, discount, Sub(Add(Add(Finite(subtotal), tax), shipping), discount))
  }

  /** With no tax, shipping or discount the total is the subtotal. */
  lemma TotalWithoutExtras(ps: seq<NormProduct>, data: JValue)
    requires !Truthy(Get(data, "tax")) && !Truthy(Get(data, "shipping")) && !Truthy(Get(data, "discount"))
    ensures ComputeTotals(ps, data).total == Finite(ComputeTotals(ps, data).subtotal)
  {
  }

  /** A discount larger than everything else gives a negative total: nothing clamps it. */
  lemma DiscountCanMakeTotalNegative(ps: seq<NormProduct>, d: int)
    requires d > Sum(LineAmounts(ps))
    ensures ComputeTotals(ps, JObj(map["discount" := JNum(d)])).total.value < 0
  {
    var data := JObj(map["discount" := JNum(d)]);
    var t := ComputeTotals(ps, data);
    assert t.tax == Finite(0) by {
      assert Get(data, "tax") == JUndef;
    }
    assert t.shipping == Finite(0) by {
      assert Get(data, "shipping") == JUndef;
    }
    assert t.discount == Finite(d) by {
      assert Get(data, "discount") == JNum(d);
    }
  }

  /** Two lines, 100 x 2 and 50 x 1, with tax 10, shipping 20 and discount 5:
      subtotal 250 and total 275. */
  lemma WorkedExample()
    ensures var ps := [NormalizeProduct(JObj(map["price" := JNum(100), "quantity" := JNum(2)])),
                       NormalizeProduct(JObj(map["price" := JNum(50), "quantity" := JNum(1)]))];
            var t := ComputeTotals(ps, JObj(map["tax" := JNum(10), "shipping" := JNum(20), "discount" := JNum(5)]));
            t.subtotal == 250 && t.total == Finite(275)
  {
    var p1 := JObj(map["price" := JNum(100), "quantity" := JNum(2)]);
    var p2 := JObj(map["price" := JNum(50), "quantity" := JNum(1)]);
    assert Get(p1, "price") == JNum(100) && Get(p1, "quantity") == JNum(2);
    assert Get(p2, "price") == JNum(50) && Get(p2, "quantity") == JNum(1);
    var ps := [NormalizeProduct(p1), NormalizeProduct(p2)];
    assert LineAmounts(ps) == [200, 50];
    var data := JObj(map["tax" := JNum(10), "shipping" := JNum(20), "discount" := JNum(5)]);
    assert Get(data, "tax") == JNum(10) && Get(data, "shipping") == JNum(20) && Get(data, "discount") == JNum(5);
  }
}

=== FILE: webhook.dfy ===
/** The payment gateway's webhook: a signed event that settles one
    PaymentTransaction and, when the payment was captured, confirms its order. */
module Webhook {
  import opened Base
  import opened Json
  import opened Schema
  import opened OrderModel
  import opened Payment

  /** The documents the webhook reads and writes: the transactions in the
      collection's natural order, and the orders by id. */
  datatype Store = Store(transactions: seq<Transaction>, orders: map<string, Order>)

  /** The outside world: the HMAC-SHA256 hex digest under the shared secret, and `JSON.parse`. */
  datatype Crypto = Crypto(digest: string -> string, parse: string -> Option<JValue>)

  /** The JSON reply, its HTTP status, and the store after the request. */
  datatype Outcome = Outcome(status: int, success: bool, message: string, store: Store)

  /** The `findOne` filter on `transactionId`: a text key, or `null` (which also
      matches documents without the field) when the event carries no `order_id`. */
  predicate MatchesKey(t: Transaction, key: Option<string>) {
    t.transactionId == key
  }

  /** The first transaction, in store order, that the filter matches. */
  function FirstMatch(ts: seq<Transaction>, key: Option<string>): (r: Option<nat>)
    ensures r.Some? ==> r.value < |ts| && MatchesKey(ts[r.value], key)
                        && forall j | 0 <= j < r.value :: !MatchesKey(ts[j], key)
    ensures r.None? ==> forall j | 0 <= j < |ts| :: !MatchesKey(ts[j], key)
    decreases |ts|
  {
    if ts == [] then None
    else if MatchesKey(ts[0], key) then Some(0)
    else
      var rest := FirstMatch(ts[1..], key);
      if rest.None? then
        assert forall j | 1 <= j < |ts| :: ts[j] == ts[1..][j - 1];
        None
      else
        assert forall j | 1 <= j < rest.value + 1 :: ts[j] == ts[1..][j - 1];
        Some(rest.value + 1)
  }

  /** What a settled transaction becomes: "completed" for a captured payment and
      "failed" for any other status, with the event kept as the gateway response. */
  function Settle(t: Transaction, captured: bool, event: JValue): (r: Transaction)
    ensures r.status == (if captured then Completed else Failed)
    ensures r.gatewayResponse == Some(event)
    ensures r.(status := t.status, gatewayResponse := t.gatewayResponse) == t
  {
    t.(status := if captured then Completed else Failed, gatewayResponse := Some(event))
  }

  /** `findByIdAndUpdate(orderId, {paymentStatus: "paid", status: "confirmed"})`:
      no document with that id means no change. */
  function ConfirmOrder(orders: map<string, Order>, id: string): (r: map<string, Order>)
    ensures r.Keys == orders.Keys
    ensures forall k | k in orders && k != id :: r[k] == orders[k]
    ensures id in orders ==> r[id] == orders[id].(paymentStatus := "paid", status := Confirmed)
  {
    if id in orders then orders[id := orders[id].(paymentStatus := "paid", status := Confirmed)] else orders
  }

  /** `event.payload.payment.entity`: reading a property of `null`/`undefined` throws. */
  function Entity(event: JValue): Option<JValue> {
    var payload := Get(event, "payload");
    var payment := Get(payload, "payment");
    var entity := Get(payment, "entity");
    if IsNullish(event) || IsNullish(payload) || IsNullish(payment) || IsNullish(entity) then None
    else Some(entity)
  }

  /** `POST /api/payments/verify` with raw body `body` and the signature header
      `signature` (`None` when the header is absent). */
  function HandleWebhook(body: string, signature: Option<string>, c: Crypto, st: Store): (r: Outcome)
    ensures signature != Some(c.digest(body)) ==> r == Outcome(400, false, "Invalid signature", st)
    ensures r.status == 400 <==> signature != Some(c.digest(body))
    ensures !r.success ==> r.store == st
    ensures r.store.orders.Keys == st.orders.Keys && |r.store.transactions| == |st.transactions|
  {
    if signature != Some(c.digest(body)) then Outcome(400, false, "Invalid signature", st)
    else
      var parsed := c.parse(body);
      if parsed.None? then Outcome(200, false, "Unexpected token in JSON", st)
      else
        var event := parsed.value;
        var entity := Entity(event);
        if entity.None? then Outcome(200, false, "Cannot read properties of undefined", st)
        else
          var orderKey := CastString(Get(entity.value, "order_id"));
          if orderKey.CastFailure? then Outcome(200, false, "Cast to string failed", st)
          else
            var key := if orderKey.Value? then Some(orderKey.value) else None;
            var found := FirstMatch(st.transactions, key);
            if found.None? then Outcome(200, false, "Transaction not found", st)
            else
              var i := found.value;
              var captured := Get(entity.value, "status") == JStr("captured");
              var tx := Settle(st.transactions[i], captured, event);
              var orders := if captured then ConfirmOrder(st.orders, tx.orderId) else st.orders;
              Outcome(200, true, "", Store(st.transactions[i := tx], orders))
  }

  /** The event a correctly signed, well-formed body carries, and the transaction it
      settles; `None` when the request changes nothing. */
  function Target(body: string, c: Crypto, st: Store): Option<(JValue, nat)> {
    var parsed := c.parse(body);
    if parsed.None? || Entity(parsed.value).None? then None
    else
      var orderKey := CastString(Get(Entity(parsed.value).value, "order_id"));
      if orderKey.CastFailure? then None
      else
        var found := FirstMatch(st.transactions, if orderKey.Value? then Some(orderKey.value) else None);
        if found.None? then None else Some((parsed.value, found.value))
  }

  predicate Captured(event: JValue) {
    Entity(event).Some? && Get(Entity(event).value, "status") == JStr("captured")
  }

  /** A signed request settles exactly the first matching transaction: it becomes
      "completed" or "failed" and keeps the event; no other transaction changes. */
  lemma SettlesOneTransaction(body: string, signature: Option<string>, c: Crypto, st: Store)
    requires signature == Some(c.digest(body))
    ensures var r := HandleWebhook(body, signature, c, st);
            var target := Target(body, c, st);
            && (r.success <==> target.Some?)
            && (target.Some? ==>
                  var (event, i) := target.value;
                  && i < |st.transactions|
                  && r.store.transactions[i].status == (if Captured(event) then Completed else Failed)
                  && r.store.transactions[i].gatewayResponse == Some(event)
                  && forall j | 0 <= j < |st.transactions| && j != i :: r.store.transactions[j] == st.transactions[j])
  {
  }

  /** Orders change only for a captured payment, and then only the order the
      transaction references, and only its payment status and status. */
  lemma OnlyCapturedConfirms(body: string, signature: Option<string>, c: Crypto, st: Store)
    ensures var r := HandleWebhook(body, signature, c, st);
            var target := Target(body, c, st);
            && (target.None? || !Captured(target.value.0) ==> r.store.orders == st.orders)
            && (signature == Some(c.digest(body)) && target.Some? && Captured(target.value.0) ==>
                  r.store.orders == ConfirmOrder(st.orders, st.transactions[target.value.1].orderId))
  {
  }

  /** Gateways resend events: handling the same signed request a second time
      leaves the store as the first time left it. */
  lemma ReplayChangesNothing(body: string, signature: Option<string>, c: Crypto, st: Store)
    ensures var once := HandleWebhook(body, signature, c, st).store;
            HandleWebhook(body, signature, c, once).store == once
  {
    var r := HandleWebhook(body, signature, c, st);
    if r.success {
      var (event, i) := Target(body, c, st).value;
      var entity := Entity(event).value;
      var orderKey := CastString(Get(entity, "order_id"));
      var key := if orderKey.Value? then Some(orderKey.value) else None;
      var once := r.store;
      assert once.transactions[i].transactionId == st.transactions[i].transactionId;
      assert forall j | 0 <= j < i :: once.transactions[j] == st.transactions[j];
      assert FirstMatch(once.transactions, key) == Some(i) by {
        FirstMatchUnique(st.transactions, once.transactions, key, i);
      }
    }
  }

  /** The first match is determined by the matched position and the positions before it. */
  lemma {:induction false} FirstMatchUnique(ts: seq<Transaction>, us: seq<Transaction>, key: Option<string>, i: nat)
    requires FirstMatch(ts, key) == Some(i)
    requires |us| == |ts| && us[i].transactionId == ts[i].transactionId
    requires forall j | 0 <= j < i :: us[j] == ts[j]
    ensures FirstMatch(us, key) == Some(i)
    decreases |ts|
  {
    if i > 0 {
      assert !MatchesKey(ts[0], key);
      assert FirstMatch(ts[1..], key) == Some(i - 1);
      FirstMatchUnique(ts[1..], us[1..], key, i - 1);
    }
  }
}
